=== FILE: README.md ===
# L20n character stream and text parsers, modelled in Dafny

This project models the core of L20n.cs's FTL reader: the `CharStream` that every
parser reads from, the `AnyText` text parsers, the `Message` entity parser, and the
`Variable` and `SelectExpression` syntax-tree nodes.

- **`CharStream`** (`char_stream.dfy`) is an immutable record. It holds:
  - the raw characters not yet delivered;
  - the position, newline count and line-start counters;
  - the replay queue;
  - the buffering flag;
  - the bookmark the buffering calls save and restore.

  Every operation is a pure function of the stream. Every operation that can fail returns `Result`. There are two views of what lies ahead:
  - `Ahead(s)` is what successive reads will deliver. A `\r\n` pair arrives as one `\n`.
  - `Peeked(s)` is what a peek shows before each of those reads.

  Contracts speak in these terms. `Consumed(s, t, s')` is the shared "`t` was read" relation. It says:
  - `t` is what lay ahead, and the rest still lies ahead;
  - the counters stepped over `t`;
  - while buffering, `t` is queued;
  - outside a bookmark, `t` is taken from the replay queue first and the source is left alone until the queue is used up (`Replayed`).
- **`Replay`** (`char_stream_replay.dfy`) holds the multi-call properties:
  - rewind and replay through the bookmark;
  - the closed form of the line and column arithmetic;
  - how the block move used by `FlushBuffer` and `StartBuffering` compares with reading one character at a time.
- **`TextInput`** (`text_input.dfy`) is the stream that `AnyText` and `Message` are written against. It is a text with a cursor (see "Left out").
- **`Grammar`** (`grammar.dfy`) makes each sub-parser that these parsers call but that is not modelled a parameter. The sub-parsers are WhiteSpace, NewLine, Identifier, Pattern, Placeable and MemberList. The only assumptions about them are that each consumes a prefix of its input, and that a peek-and-parse which finds nothing leaves the cursor where it was.
- **`AnyText`** (`any_text.dfy`) covers the unquoted, quoted and block text. One recursive `Scan` models the escape-toggling loop. `Escaping` gives that loop's meaning: an odd run of trailing backslashes escapes the next character.
- **`Message`** (`message.dfy`) covers `Parse`/`PeekAndParse` exactly as written, and a corrected `ParseChecked` (see "Findings").
- **`Ast`** (`ast.dfy`) covers the node kinds. It also has `Serialize` to a string, and `Optimize`.
- `Numerals`, `Chars` and `Wrappers` are small supporting modules: decimal rendering and reading back, the character classes, and `Option`/`Result`.

Where the source's own comments and its code disagree, the model follows the code:
- The grammar comment above `ParseUnquoted` (src/L20n/FTL/Parsers/AnyText.cs:26) lists `\{` and `\}` as the escaped forms of the braces, which reads as if they were decoded. The loop at src/L20n/FTL/Parsers/AnyText.cs:35-37 adds every character to the buffer, the backslash included, and only stops treating the escaped brace as a delimiter. The model keeps the backslash too (`EscapedBraceKeptVerbatim`). `ParseQuoted` does the same with `\{` and `\"`.
- The remark on `ReadNext` (L20n/io/CharStream.cs:116-118) says `\r\n` counts as one newline. That holds for reads. `PeekNext` (L20n/io/CharStream.cs:89-92) does not fold the pair, so a peek shows the `\r` while the read returns `\n`. `Peeked` and `ViewsAgree` model that.
- A failed read is reported with the text "next character could not be read". `ReadNext` raises its end-of-input error inside its own `try` block and re-wraps it.

## Model

| member | source | states |
|---|---|---|
| Chars.IsNL | L20n/io/CharStream.cs:42-45 | `\r` and `\n` are both newline characters. The folded newline `NL` is one, and no newline is the end-of-input marker. |
| CharStream.EndOfStream | L20n/io/CharStream.cs:376-379 | True exactly when no character is left to deliver. Queued characters count only outside a bookmark. |
| CharStream.PeekNext | L20n/io/CharStream.cs:83-96 | Outside a bookmark and when the replay queue is non-empty, the head of that queue. Otherwise the next raw character, which is `\r` for a `\r\n` pair, or `EOF` at the end. Always the first element of `Peeked`. |
| CharStream.PeekNextUnbuffered | L20n/io/CharStream.cs:101-111 | The next raw character or `EOF`. Equals `PeekNext` whenever the queue is not being replayed. |
| CharStream.ViewsAgree | L20n/io/CharStream.cs:83-96 | A peek and the read after it deliver the same character, except that a folded `\r\n` pair is peeked as `\r` and read as `\n`. |
| CharStream.ReadNext | L20n/io/CharStream.cs:119-152 | Succeeds iff the stream is not at its end. Returns the first character ahead and leaves exactly the rest ahead. A `\r\n` pair in the source is consumed whole and read as `\n`. The counters step as `MovePosition(char)`. The character is queued while buffering. Outside a bookmark, a character taken from the queue leaves the source alone, and a character taken from the source leaves the queue empty. A failure carries "next character could not be read" at the current line and column. |
| CharStream.QueuedReadConsumes | L20n/io/CharStream.cs:124-125 | Taking the head of the replay queue consumes exactly that character. |
| CharStream.RawReadConsumes | L20n/io/CharStream.cs:126-146 | Reading from the source consumes one character, or one folded pair, and queues it while buffering. |
| CharStream.Step | L20n/io/CharStream.cs:291-299 | One character moves the position by one. A newline (`\r` or `\n`) adds one line and puts the line start at the new position. Any other character leaves the line count and line start alone. |
| CharStream.MoveOver | L20n/io/CharStream.cs:305-325 | The block move advances the position by the block's length and the line count by its line breaks. When it counts any break, the line start is the position after the whole block. |
| CharStream.LineBreaks | L20n/io/CharStream.cs:309-323 | The breaks the block move counts: never more than the characters in the block, and none exactly when the block holds no `\r` or `\n`. |
| CharStream.AdvanceAppend | L20n/io/CharStream.cs:291-299 | Moving the counters over `a + b` is moving them over `a`, then over `b`. |
| CharStream.ConsumedTrans | L20n/io/CharStream.cs:157-164 | Two reads in a row amount to one read of the concatenated text. |
| CharStream.ReadBlock | L20n/io/CharStream.cs:157-164 | Succeeds iff at least `n` characters lie ahead. Returns exactly the next `n` characters and consumes them. Otherwise fails with a positioned error. |
| CharStream.SkipNext | L20n/io/CharStream.cs:224-227 | Succeeds iff not at the end, and consumes exactly the first character ahead. |
| CharStream.SkipBlock | L20n/io/CharStream.cs:232-236 | Succeeds iff at least `n` characters lie ahead, and consumes exactly those. |
| CharStream.SkipCharacter | L20n/io/CharStream.cs:241-247 | Succeeds iff the next character is `expected`, and then consumes just it. Otherwise fails with a positioned error. |
| CharStream.SkipCharacterReports | L20n/io/CharStream.cs:241-247 | At the end, the failure is the failed read's. On a mismatch, the error names both characters and points at the character just read (offset -1 after the read). |
| CharStream.SkipString | L20n/io/CharStream.cs:281-285 | Succeeds iff `expected` is a prefix of what lies ahead, and then consumes exactly it. |
| CharStream.ReadSpan | L20n/io/CharStream.cs:170-176 | The shared loop. It returns the longest prefix ahead whose peeks all give `p(c) == want`. The loop stops at the end or at the first peek that does not. |
| CharStream.ReadWhile | L20n/io/CharStream.cs:170-176 | The longest prefix ahead whose peeks satisfy the predicate, consumed. |
| CharStream.ReadUntil | L20n/io/CharStream.cs:197-203 | The longest prefix ahead whose peeks fail the predicate, consumed. |
| CharStream.SkipWhile | L20n/io/CharStream.cs:252-261 | The count of the longest prefix whose peeks satisfy the predicate, with that prefix consumed. |
| CharStream.SkipUntil | L20n/io/CharStream.cs:266-276 | The count of the longest prefix whose peeks fail the predicate, with that prefix consumed. |
| CharStream.ReadLine | L20n/io/CharStream.cs:185-191 | The text up to the next line break, which has no newline in it. The break itself is consumed but not returned. At the end of the input the rest is the line. Either way the line, plus the break when there is one, is consumed as by reading: counters stepped, bookmark and buffering kept, text queued while buffering. |
| CharStream.ReadUntilEnd | L20n/io/CharStream.cs:208-219 | The whole queue, even while buffering, then the raw rest of the source. The counters move over it as one block and the stream is left at its end. Outside a bookmark, with no `\r\n` in the source, it equals what reading one by one delivers. |
| CharStream.FoldWithoutCrLf | L20n/io/CharStream.cs:138-139 | Folding changes nothing in a text without a `\r\n` pair. |
| CharStream.ComputeDetailedPosition | L20n/io/CharStream.cs:386-391 | `L<line>:<column>` reads back as 1-based line = newlines + 1 and column = position + offset − line start + 1. It contains no space. |
| CharStream.PositionRoundTrip | L20n/io/CharStream.cs:386-391 | Parsing the formatted position gives back the line and column. |
| CharStream.CreateException | L20n/io/CharStream.cs:397-402 | A parse error whose position reads back as the stream's line and column, shifted by `offset`, and whose detail is the caller's text. |
| CharStream.MessageReadsBack | L20n/io/CharStream.cs:397-402 | The rendered `unexpected situation at L<l>:<c>: <msg>` parses back into line, column and message. |
| CharStream.FlushBuffer | L20n/io/CharStream.cs:330-334 | Empties the replay queue. The position advances by the queue's length and the line count by its line breaks. When there is a break, the line start is set to the position after the whole queue, as written (see "Findings"). Source, bookmark and buffering mode are untouched. |
| CharStream.StartBuffering | L20n/io/CharStream.cs:340-353 | Fails iff a bookmark is already open, with a misuse error. Otherwise it passes the counters over the still-queued characters as one block. It then records the bookmark and keeps the queue. |
| CharStream.StopBuffering | L20n/io/CharStream.cs:361-370 | Fails iff no bookmark is open, with a misuse error. Otherwise it restores the bookmarked counters and puts the queued characters back in front of what lies ahead. |
| Replay.AdvanceClosedForm | L20n/io/CharStream.cs:291-299 | After reading `t` one by one, the position moved by `\|t\|`. The newline count grew by the number of newlines in `t`. The line start is just after the last of them. |
| Replay.DetailedPositionAfterReading | L20n/io/CharStream.cs:386-391 | After reading `t` from a fresh stream, the reported line is 1 + the newlines read. The column is 1 + the characters read since the last newline. |
| Replay.ReplayDrainsQueue | L20n/io/CharStream.cs:124-125 | Outside a bookmark, the next `n` reads take the first `n` queued characters in order and change nothing else. |
| Replay.RewindReplays | L20n/io/CharStream.cs:340-370 | Bookmark, read `n`, rewind: the counters and the characters ahead are as before. Reading `n` again returns the same text and ends where the first read ended, with the queue drained. |
| Replay.RewindOverPendingQueue | L20n/io/CharStream.cs:340-353 | A bookmark opened over a non-empty queue rewinds to the same characters ahead. The position stays advanced past the queued characters, which will be counted again. |
| Replay.RewindRestoresText | L20n/io/CharStream.cs:361-370 | Rewinding puts the text read under the bookmark back in front of the source. |
| Replay.MoveOverCountsLikeReading | L20n/io/CharStream.cs:305-325 | The block move advances the position as reading does. It counts the same newlines when no `\r` is directly followed by `\n`. |
| Replay.LineBreaksWithoutCrLf | L20n/io/CharStream.cs:305-325 | Without `\r\n` pairs, the block move's line-break count is the number of newline characters. |
| Replay.MoveOverWithoutBreaks | L20n/io/CharStream.cs:305-325 | On a block without line breaks, the block move equals reading one by one. |
| Replay.BlockMoveAgainstReading | L20n/io/CharStream.cs:305-325 | On `a\nbc`, the block move puts the line start at 4 while reading puts it at 2. |
| Replay.FlushAfterRewindMisplacesLineStart | L20n/io/CharStream.cs:305-334 | Rewinding a read of `a\nbc` and flushing leaves the line start two characters later than the read did. |
| Replay.MoveEachIsReading | L20n/io/CharStream.cs:305-325 | The corrected block move equals reading the characters one by one. |
| Replay.FlushBufferFixed | L20n/io/CharStream.cs:330-334 | Flushing with the corrected block move leaves the counters exactly where reading the queue would. |
| Replay.StartBufferingFixed | L20n/io/CharStream.cs:340-353 | With the corrected block move, the bookmark is taken after the counters moved over the queue exactly as reading would. |
| Replay.RewindThenFlushCommits | L20n/io/CharStream.cs:330-370 | With the corrected block move, rewinding a read and then flushing ends in exactly the state the read reached, counters included. |
| Numerals.ParseIntToString | L20n/io/CharStream.cs:388-390 | The decimal rendering of an integer reads back as that integer. |
| TextInput.Peek | src/L20n/FTL/Parsers/AnyText.cs:21-23 | The character under the cursor, or `EOF` past the end. |
| TextInput.Rewind | src/L20n/FTL/Parsers/AnyText.cs:84-92 | Back to an earlier position on the same text. |
| TextInput.SkipCharacter | L20n/ftl/parsers/Message.cs:31 | Succeeds iff the character under the cursor is `expected`, and then moves past it. Otherwise fails, pointing at that character. |
| AnyText.EscapingStep | src/L20n/FTL/Parsers/AnyText.cs:37 | The loop's toggle computes `Escaping`. A backslash escapes iff it is not itself escaped. |
| AnyText.Scan | src/L20n/FTL/Parsers/AnyText.cs:31-39 | Stops on the first character that is `EOF`, a newline, or an unescaped stop character. Everything before it forms a run of text. |
| AnyText.ParseUnquoted | src/L20n/FTL/Parsers/AnyText.cs:19-47 | Succeeds iff `PeekUnquoted` holds. Returns the longest non-empty run verbatim, stopping at an unescaped `{` or `}`. Otherwise an error at the cursor. |
| AnyText.ParseQuoted | src/L20n/FTL/Parsers/AnyText.cs:50-71 | After whitespace, succeeds iff a run can start there. Returns the longest run verbatim up to an unescaped `{` or `"`, which is not consumed. An empty run fails at the cursor after the whitespace. |
| AnyText.PeekBlockText | src/L20n/FTL/Parsers/AnyText.cs:73-93 | Reports whether `NL WS* '\|'` lies ahead and always returns the cursor where it was. It fails only when the newline parse fails. |
| AnyText.BlockLine | src/L20n/FTL/Parsers/AnyText.cs:129-137 | A line is the placeable when the placeable parser finds one, and that parser's error when it fails. Otherwise it is the unquoted text at the cursor: it succeeds iff `PeekUnquoted` holds, and the line is the longest run, kept verbatim. |
| AnyText.BlockLines | src/L20n/FTL/Parsers/AnyText.cs:126-157 | One or more lines, the first being the line after the opening `\|` and its whitespace. Stops where no further `NL WS* '\|'` follows. A failing first line fails the block, and so does a failing newline parse after a line: it is not taken as the end of the block. |
| AnyText.BlockLinesSegment | src/L20n/FTL/Parsers/AnyText.cs:126-157 | One turn of the loop. The first line is the one after the `\|`. The block has exactly one line iff no `NL WS* '\|'` follows that line, and then it ends where that line ends. Otherwise the remaining lines and the end cursor are exactly those of the block that starts at the next `\|`. |
| AnyText.BlockEndsWithLastLine | src/L20n/FTL/Parsers/AnyText.cs:139-156 | The block ends exactly where its last line ends. So when a newline is not followed by `WS* '\|'`, the cursor is back before that newline. |
| AnyText.BlockLinesAreLines | src/L20n/FTL/Parsers/AnyText.cs:126-137 | Every line of the block is what the line parser returns at some cursor inside the block. |
| AnyText.PeekUnquoted | src/L20n/FTL/Parsers/AnyText.cs:19-24 | True exactly when the next character can begin a run of unquoted text. |
| AnyText.PeekAndParseBlock | src/L20n/FTL/Parsers/AnyText.cs:96-161 | With no newline ahead, no match. With a newline whose parse fails, that parse's error. With a parsed newline not followed by `WS* '\|'`, no match and the cursor back where it was. Otherwise a match. So on success it finds a match iff `NL WS* '\|'` lies ahead. A match is a block text of at least one line. Its first line is the one after the first `\|`, and each line is one the line parser returns inside the block. It ends where its last line ends, before any newline not followed by `\|`. Once `NL WS* '\|'` is seen, the result is exactly the block that starts at that `\|`, so its lines are those `BlockLinesSegment` fixes one by one. |
| AnyText.EscapedBraceKeptVerbatim | src/L20n/FTL/Parsers/AnyText.cs:26-47 | `a\{b` is one run of unquoted text, returned with its backslash. |
| AnyText.DoubleBackslashDoesNotEscape | src/L20n/FTL/Parsers/AnyText.cs:31-38 | In `a\\{b` the brace is not escaped, so the run ends before it. |
| Message.Parse | L20n/ftl/parsers/Message.cs:28-52 | Succeeds iff each step succeeds: the `=` after the whitespace, the pattern when no newline follows `= WS`, the mandatory newline, and the member-list lookahead. The entity keeps the identifier. Its pattern is the one the pattern parser returned, present iff no newline follows `= WS`. Its member list and the end cursor are those the member-list parser returned. |
| Message.Value | L20n/ftl/parsers/Message.cs:35-39 | No pattern, with the cursor kept, when a newline comes next. Otherwise exactly the pattern parser's outcome. |
| Message.ParseLayout | L20n/ftl/parsers/Message.cs:30-45 | On success the parts lie in order in the text: the `=`, then the pattern, then the newline, then the member list, ending at the returned cursor. |
| Message.PeekAndParse | L20n/ftl/parsers/Message.cs:18-26 | With no identifier, no match and the cursor unmoved. Once an identifier is found, the result is exactly what `Parse` returns from the cursor after it: a match iff `Parse` succeeds, with the same entity and end cursor. |
| Message.ValuelessMessageAccepted | L20n/ftl/parsers/Message.cs:44-51 | `id =` followed by a newline and no member list parses, as written, to an entity with neither pattern nor member list. |
| Message.ParseChecked | L20n/ftl/parsers/Message.cs:44-51 | Every entity returned has a pattern or a member list. It succeeds exactly when `Parse` does and the result has a value. |
| Message.PeekAndParseChecked | L20n/ftl/parsers/Message.cs:18-26 | Every entity found has a value, and no identifier means no match with the cursor unmoved. Once an identifier is found, the result is exactly what `ParseChecked` returns from the cursor after it. |
| Ast.SerializeVariable | L20n/ftl/ast/Variable.cs:36-40 | A variable prints as `$` followed by its identifier. |
| Ast.SerializeSelect | L20n/ftl/ast/SelectExpression.cs:37-42 | A select expression prints as its scrutinee, then ` ->`, then its member list. |
| Ast.VariableSerializationDetermined | L20n/ftl/ast/Variable.cs:36-40 | Two variables that print alike have identifiers that print alike. |
| Ast.SelectSerializationSplits | L20n/ftl/ast/SelectExpression.cs:37-42 | A printed select expression splits back into scrutinee and member list once the scrutinee's length is known. |
| Ast.OptimizeVariable | L20n/ftl/ast/Variable.cs:28-31 | A variable optimizes to itself, so optimizing it again changes nothing. |
| Ast.OptimizeSelect | L20n/ftl/ast/SelectExpression.cs:29-32 | Optimizing a select expression always fails as not implemented. |

## Left out

- The constructors, `Path` and `Dispose` (L20n/io/CharStream.cs:24-75, 407-410): these are file and reader plumbing. `Open` gives the state the constructors leave behind.
- Exceptions thrown by the reader itself: I/O is not modelled. The exception a `ParseException` wraps is not kept either.
- The `int` counters are unbounded `nat`s. 32-bit overflow is not modelled.
- Characters are Unicode scalar values, not UTF-16 code units as in C#. A character outside the Basic Multilingual Plane is one `char` here, so `Step` moves the position by 1 where `MovePosition` moves it by 2, and later columns differ. Lone surrogates cannot be represented.
- `ReadBlock` and `SkipBlock` with a negative count: `n` is a `nat`. In the source a negative count makes `SkipBlock` read nothing and makes `ReadBlock` fail when it builds its string.
- The state a stream is left in after an error is not returned, because every error in the source aborts the parse.
- The newer `CharStream`, with `Rewind`, `IsEOF` and `Position` setting, is not part of this model. It is what `AnyText` and `Message` call. `TextInput` stands in for it: a text with a cursor, without `\r\n` folding.
- The sub-parsers `WhiteSpace`, `NewLine`, `Identifier`, `Pattern`, `Placeable` and `MemberList` are not part of this model. They are parameters assumed only to consume a prefix of the input.
- `Ast.Serialize` and `Ast.Optimize` have no rows: they only dispatch on the node kind, to the per-node members listed above or to the caller's functions.
- `Entity.Optimize`/`Serialize`, the `IParser` interface and the other node kinds are printed and optimized by caller-supplied functions. `TextWriter` is replaced by returning a string.
- Message.Parse: its contract does not say which error a failure carries. It states which step must fail for the parse to fail, and what a success contains.

## Findings

| source | as written | input that shows it | evidently intended | confidence | as-written member | corrected member |
|---|---|---|---|---|---|---|
| L20n/ftl/parsers/Message.cs:46-49 | The "member-list was expected" exception is created but never thrown. | `foo =` then a newline, with no member list after it | Parsing fails when an entity has neither a pattern nor a member list. | high, not executed | Message.ValuelessMessageAccepted | Message.ParseChecked |
| L20n/io/CharStream.cs:305-325 | `m_Position += s.Length` runs before the loop, so every line break in the block sets the line start to the end of the block. | bookmark, read `a\nbc`, rewind, `FlushBuffer` | The line start falls just after the last line break, as when reading one by one. Here that is 2, not 4, so later columns are not two too small. | medium, not executed | Replay.FlushAfterRewindMisplacesLineStart | Replay.RewindThenFlushCommits |

=== FILE: any_text.dfy ===
/**
  AnyText (src/L20n/FTL/Parsers/AnyText.cs): the unquoted and quoted text scanners
  and the block-text lookahead and parser.
 */
module AnyText {
  import opened Wrappers
  import opened Chars
  import opened TextInput
  import opened Ast
  import opened Grammar

  // ---------------------------------------------------------------------------
  // Escapes
  // ---------------------------------------------------------------------------

  /** How many backslashes `w` ends with. */
  function TrailingBackslashes(w: seq<char>): nat {
    if |w| == 0 || w[|w| - 1] != '\\' then 0 else 1 + TrailingBackslashes(w[..|w| - 1])
  }

  /** After `w`, the next character is escaped: `w` ends in an odd run of backslashes. */
  predicate Escaping(w: seq<char>) {
    TrailingBackslashes(w) % 2 == 1
  }

  /**
    The scanners' one-character toggle computes `Escaping`: a backslash escapes
    exactly when it is not itself escaped, so `\\` escapes nothing.
   */
  lemma EscapingStep(w: seq<char>, c: char)
    ensures Escaping(w + [c]) == (!Escaping(w) && c == '\\')
  {
    assert (w + [c])[..|w|] == w;
  }

  /** `c` may extend a text run `w` that stops at `stops`. */
  predicate Continues(w: seq<char>, c: char, stops: set<char>) {
    !IsEOF(c) && !IsNL(c) && (c !in stops || Escaping(w))
  }

  /**
    A text run: no `EOF`, no newline, and a stop character only right after an
    escaping backslash.
   */
  predicate Run(w: seq<char>, stops: set<char>) {
    forall k :: 0 <= k < |w| ==> Continues(w[..k], w[k], stops)
  }

  lemma RunStep(w: seq<char>, c: char, stops: set<char>)
    requires Run(w, stops) && Continues(w, c, stops)
    ensures Run(w + [c], stops)
  {
    forall k | 0 <= k < |w + [c]|
      ensures Continues((w + [c])[..k], (w + [c])[k], stops)
    {
      if k < |w| {
        assert (w + [c])[..k] == w[..k];
      } else {
        assert (w + [c])[..k] == w;
      }
    }
  }

  const UnquotedStops: set<char> := {'{', '}'}
  const QuotedStops: set<char> := {'{', '"'}

  /**
    The scanning loop of ParseUnquoted and ParseQuoted: takes characters while they
    continue the run begun at `start`; `escaped` is the toggle the loop keeps.
   */
  function Scan(i: Input, stops: set<char>, escaped: bool, ghost start: nat): (o: Input)
    requires start <= i.pos
    requires Run(i.text[start..i.pos], stops)
    requires escaped == Escaping(i.text[start..i.pos])
    ensures Advances(i, o)
    ensures Run(o.text[start..o.pos], stops)
    ensures !Continues(o.text[start..o.pos], Peek(o), stops)
    decreases |i.text| - i.pos
  {
    var next := Peek(i);
    if !IsEOF(next) && !IsNL(next) && (escaped || next !in stops) then
      var w := i.text[start..i.pos];
      EscapingStep(w, next);
      RunStep(w, next, stops);
      assert i.text[start..i.pos + 1] == w + [next];
      Scan(Next(i), stops, !escaped && next == '\\', start)
    else
      i
  }

  // ---------------------------------------------------------------------------
  // Unquoted and quoted text
  // ---------------------------------------------------------------------------

  /** `PeekUnquoted`: the next character can begin unquoted text. */
  function PeekUnquoted(i: Input): (r: bool)
    ensures r <==> Continues([], Peek(i), UnquotedStops)
  {
    var next := Peek(i);
    !IsEOF(next) && !IsNL(next) && next != '{' && next != '}'
  }

  /**
    `ParseUnquoted`: the longest run of unquoted text, kept verbatim (an escaping
    backslash stays in the text); an empty run is an error. It succeeds exactly
    when PeekUnquoted holds.
   */
  function ParseUnquoted(i: Input): (r: Result<(StringPrimitive, Input), SyntaxError>)
    ensures r.Ok? <==> PeekUnquoted(i)
    ensures r.Ok? ==>
              var (text, o) := r.value;
              && Advances(i, o) && o.pos > i.pos
              && text.value == i.text[i.pos..o.pos]
              && Run(text.value, UnquotedStops)
              && !Continues(text.value, Peek(o), UnquotedStops)
    ensures r.Err? ==> r.error.at == i.pos
  {
    var o := Scan(i, UnquotedStops, false, i.pos);
    if o.pos == i.pos then
      Err(SyntaxError(o.pos, "no unquoted text could be parsed, while this was expected"))
    else
      assert Continues([], i.text[i.pos..o.pos][0], UnquotedStops);
      Ok((StringPrimitive(i.text[i.pos..o.pos]), o))
  }

  /**
    `ParseQuoted`: skips whitespace, then the longest run that stops at `{` or `"`
    (unless escaped), kept verbatim; the stop character is not consumed and an
    empty run is an error.
   */
  function ParseQuoted(g: Parsers, i: Input): (r: Result<(Node, Input), SyntaxError>)
    ensures var j := g.whiteSpace(i);
            r.Ok? <==> Continues([], Peek(j), QuotedStops)
    ensures r.Ok? ==>
              var j := g.whiteSpace(i);
              var (node, o) := r.value;
              && Advances(j, o) && o.pos > j.pos
              && node == QuotedText(j.text[j.pos..o.pos])
              && Run(node.value, QuotedStops)
              && !Continues(node.value, Peek(o), QuotedStops)
    ensures r.Err? ==> r.error.at == g.whiteSpace(i).pos
  {
    var j := g.whiteSpace(i);
    var o := Scan(j, QuotedStops, false, j.pos);
    if o.pos == j.pos then
      Err(SyntaxError(o.pos, "no quoted text could be parsed, while this was expected"))
    else
      assert Continues([], j.text[j.pos..o.pos][0], QuotedStops);
      Ok((QuotedText(j.text[j.pos..o.pos]), o))
  }

  // ---------------------------------------------------------------------------
  // Block text
  // ---------------------------------------------------------------------------

  /** `NL WS* '|'` lies ahead: a newline, and a `|` after it and the whitespace that follows. */
  predicate BarFollows(g: Parsers, i: Input) {
    && IsNL(Peek(i))
    && g.newLine(i).Ok?
    && Peek(g.whiteSpace(g.newLine(i).value)) == '|'
  }

  /**
    `PeekBlockText`: a pure lookahead. It reports whether `NL WS* '|'` lies ahead
    and always rewinds to where it started; only a failing newline parse escapes.
   */
  function PeekBlockText(g: Parsers, i: Input): (r: Result<(bool, Input), SyntaxError>)
    ensures r.Ok? ==> r.value.1 == i
    ensures r.Ok? ==> (r.value.0 <==> BarFollows(g, i))
    ensures r.Err? <==> IsNL(Peek(i)) && g.newLine(i).Err?
  {
    var next := Peek(i);
    if IsEOF(next) || !IsNL(next) then
      Ok((false, i))
    else
      var bufferPos := i.pos;
      var afterNewLine :- g.newLine(i);
      var afterSpace := g.whiteSpace(afterNewLine);
      var next := Peek(afterSpace);
      Ok((next == '|', Rewind(afterSpace, bufferPos)))
  }

  /**
    One block line: a placeable if one is there, otherwise unquoted text. Since a
    `PeekAndParse` that finds nothing consumes nothing, the unquoted text starts
    at `i` itself.
   */
  function BlockLine(g: Parsers, i: Input): (r: Result<(Node, Input), SyntaxError>)
    ensures r.Ok? ==> Advances(i, r.value.1)
    ensures g.placeable(i).Err? ==> r == Err(g.placeable(i).error)
    ensures g.placeable(i).Ok? && g.placeable(i).value.0.Some? ==>
              r == Ok((g.placeable(i).value.0.value, g.placeable(i).value.1))
    ensures g.placeable(i).Ok? && g.placeable(i).value.0.None? ==>
              && (r.Ok? <==> PeekUnquoted(i))
              && (r.Ok? ==> var (line, o) := r.value;
                    && o.pos > i.pos
                    && line == Text(StringPrimitive(i.text[i.pos..o.pos]))
                    && Run(line.primitive.value, UnquotedStops)
                    && !Continues(line.primitive.value, Peek(o), UnquotedStops))
  {
    var placeable :- g.placeable(i);
    if placeable.0.Some? then
      Ok((placeable.0.value, placeable.1))
    else
      var text :- ParseUnquoted(placeable.1);
      Ok((Text(text.0), text.1))
  }

  /**
    The loop of PeekAndParseBlock, entered on a `|`: takes the line after it, then
    goes on only while `NL WS* '|'` follows, rewinding to just before the newline
    when it does not. So the block ends exactly where its last line ends, and
    every line is one that BlockLine parses somewhere inside the block.
   */
  function BlockLines(g: Parsers, i: Input): (r: Result<(seq<Node>, Input), SyntaxError>)
    requires Peek(i) == '|'
    ensures r.Ok? ==> var (lines, o) := r.value;
              && |lines| >= 1
              && Advances(i, o) && o.pos > i.pos
              && !BarFollows(g, o)
              && BlockLine(g, g.whiteSpace(Next(i))).Ok?
              && lines[0] == BlockLine(g, g.whiteSpace(Next(i))).value.0
    ensures BlockLine(g, g.whiteSpace(Next(i))).Err? ==> r.Err?
    ensures BlockLine(g, g.whiteSpace(Next(i))).Ok? ==>
              var m := BlockLine(g, g.whiteSpace(Next(i))).value.1;
              IsNL(Peek(m)) && g.newLine(m).Err? ==> r == Err(g.newLine(m).error)
    decreases |i.text| - i.pos
  {
    var afterBar := Next(i);
    var afterSpace := g.whiteSpace(afterBar);
    var line :- BlockLine(g, afterSpace);
    var next := Peek(line.1);
    if IsEOF(next) || !IsNL(next) then
      Ok(([line.0], line.1))
    else
      var bufferPos := line.1.pos;
      var afterNewLine :- g.newLine(line.1);
      var lookahead := g.whiteSpace(afterNewLine);
      if Peek(lookahead) != '|' then
        Ok(([line.0], Rewind(lookahead, bufferPos)))
      else
        var rest :- BlockLines(g, lookahead);
        Ok(([line.0] + rest.0, rest.1))
  }

  /**
    One turn of the block loop: the first line, and then either the end of the
    block or the lines from the next `|` on.
   */
  lemma BlockLinesStep(g: Parsers, i: Input)
    requires Peek(i) == '|' && BlockLines(g, i).Ok?
    ensures var first := g.whiteSpace(Next(i));
            && Advances(i, first)
            && BlockLine(g, first).Ok?
            && var (line, m) := BlockLine(g, first).value;
               || BlockLines(g, i).value == ([line], m)
               || (&& IsNL(Peek(m)) && g.newLine(m).Ok?
                   && var later := g.whiteSpace(g.newLine(m).value);
                      && Peek(later) == '|' && Advances(i, later) && later.pos > i.pos
                      && BlockLines(g, later).Ok?
                      && BlockLines(g, i).value ==
                         ([line] + BlockLines(g, later).value.0, BlockLines(g, later).value.1))
  {
  }

  /**
    The loop's rule: the first line is the one after the `|`; the block stops there,
    at the end of that line, unless `NL WS* '|'` follows it, and then the remaining
    lines are the block that starts at that next `|`.
   */
  lemma BlockLinesSegment(g: Parsers, i: Input)
    requires Peek(i) == '|' && BlockLines(g, i).Ok?
    ensures var (lines, o) := BlockLines(g, i).value;
            var (first, m) := BlockLine(g, g.whiteSpace(Next(i))).value;
            && lines[0] == first
            && (|lines| == 1 <==> !BarFollows(g, m))
            && (|lines| == 1 ==> o == m)
            && (|lines| > 1 ==>
                  var later := g.whiteSpace(g.newLine(m).value);
                  && Peek(later) == '|'
                  && BlockLines(g, later) == Ok((lines[1..], o)))
  {
    var (lines, o) := BlockLines(g, i).value;
    var (first, m) := BlockLine(g, g.whiteSpace(Next(i))).value;
    if BarFollows(g, m) {
      var later := g.whiteSpace(g.newLine(m).value);
      assert lines == [first] + BlockLines(g, later).value.0;
      assert lines[1..] == BlockLines(g, later).value.0;
    }
  }

  /** The block ends exactly where its last line ends: just before any newline. */
  lemma {:induction false} BlockEndsWithLastLine(g: Parsers, i: Input)
    requires Peek(i) == '|'
    ensures BlockLines(g, i).Ok? ==> LastLineEnds(g, i, BlockLines(g, i).value)
    decreases |i.text| - i.pos
  {
    if BlockLines(g, i).Ok? {
      BlockLinesStep(g, i);
      var block := BlockLines(g, i).value;
      var first := g.whiteSpace(Next(i));
      var (line, m) := BlockLine(g, first).value;
      if block == ([line], m) {
        EndsAt(g, i, first, line, m);
      } else {
        var later := g.whiteSpace(g.newLine(m).value);
        var rest := BlockLines(g, later).value;
        BlockEndsWithLastLine(g, later);
        assert block.0[|block.0| - 1] == rest.0[|rest.0| - 1];
        EndsLater(g, i, later, rest.0[|rest.0| - 1], rest.1);
      }
    }
  }

  /** Every line of a block is one that BlockLine parses somewhere inside the block. */
  lemma {:induction false} BlockLinesAreLines(g: Parsers, i: Input)
    requires Peek(i) == '|'
    ensures BlockLines(g, i).Ok? ==> LinesWithin(g, i, BlockLines(g, i).value)
    decreases |i.text| - i.pos
  {
    if BlockLines(g, i).Ok? {
      BlockLinesStep(g, i);
      var block := BlockLines(g, i).value;
      var first := g.whiteSpace(Next(i));
      var (line, m) := BlockLine(g, first).value;
      if block == ([line], m) {
        WithinAt(g, i, first, line, m);
      } else {
        var later := g.whiteSpace(g.newLine(m).value);
        var rest := BlockLines(g, later).value;
        BlockLinesAreLines(g, later);
        forall k | 0 <= k < |block.0|
          ensures LineWithin(g, i, block.0[k], block.1)
        {
          if k == 0 {
            WithinAt(g, i, first, line, block.1);
          } else {
            assert block.0[k] == rest.0[k - 1];
            assert LineWithin(g, later, rest.0[k - 1], rest.1);
            WithinLater(g, i, later, block.0[k], block.1);
          }
        }
      }
    }
  }

  /** The last of `block.0` is parsed by BlockLine from `i` on and ends at `block.1`. */
  ghost predicate LastLineEnds(g: Parsers, i: Input, block: (seq<Node>, Input)) {
    |block.0| > 0 && EndsWithLine(g, i, block.0[|block.0| - 1], block.1)
  }

  /** Each of `block.0` is parsed by BlockLine between `i` and `block.1`. */
  ghost predicate LinesWithin(g: Parsers, i: Input, block: (seq<Node>, Input)) {
    forall k :: 0 <= k < |block.0| ==> LineWithin(g, i, block.0[k], block.1)
  }

  lemma BlockLater(g: Parsers, i: Input, later: Input, block: (seq<Node>, Input))
    requires Advances(i, later) && LastLineEnds(g, later, block) && LinesWithin(g, later, block)
    ensures LastLineEnds(g, i, block) && LinesWithin(g, i, block)
  {
    EndsLater(g, i, later, block.0[|block.0| - 1], block.1);
    forall k | 0 <= k < |block.0|
      ensures LineWithin(g, i, block.0[k], block.1)
    {
      WithinLater(g, i, later, block.0[k], block.1);
    }
  }

  /** `line` is what BlockLine parses at some cursor from `i` on, and it ends at `o`. */
  ghost predicate EndsWithLine(g: Parsers, i: Input, line: Node, o: Input) {
    exists j: Input :: Advances(i, j) && BlockLine(g, j) == Ok((line, o))
  }

  lemma EndsAt(g: Parsers, i: Input, j: Input, line: Node, o: Input)
    requires Advances(i, j) && BlockLine(g, j) == Ok((line, o))
    ensures EndsWithLine(g, i, line, o)
  {
  }

  lemma EndsLater(g: Parsers, i: Input, later: Input, line: Node, o: Input)
    requires Advances(i, later) && EndsWithLine(g, later, line, o)
    ensures EndsWithLine(g, i, line, o)
  {
    var j: Input :| Advances(later, j) && BlockLine(g, j) == Ok((line, o));
    EndsAt(g, i, j, line, o);
  }

  /** `line` is what BlockLine parses at some cursor between `i` and `o`. */
  ghost predicate LineWithin(g: Parsers, i: Input, line: Node, o: Input) {
    exists j: Input :: && Advances(i, j) && j.pos <= o.pos
                       && BlockLine(g, j).Ok? && BlockLine(g, j).value.0 == line
  }

  lemma WithinAt(g: Parsers, i: Input, j: Input, line: Node, o: Input)
    requires Advances(i, j) && j.pos <= o.pos && BlockLine(g, j).Ok? && BlockLine(g, j).value.0 == line
    ensures LineWithin(g, i, line, o)
  {
  }

  lemma WithinLater(g: Parsers, i: Input, later: Input, line: Node, o: Input)
    requires Advances(i, later) && LineWithin(g, later, line, o)
    ensures LineWithin(g, i, line, o)
  {
    var j: Input :| && Advances(later, j) && j.pos <= o.pos
                    && BlockLine(g, j).Ok? && BlockLine(g, j).value.0 == line;
    WithinAt(g, i, j, line, o);
  }

  /**
    `PeekAndParseBlock`: no match, and the cursor where it was, unless `NL WS* '|'`
    lies ahead; then a block text of one or more lines, each parsed by BlockLine,
    ending where its last line ends, just before any newline not followed by `|`.
   */
  function PeekAndParseBlock(g: Parsers, i: Input): (r: Result<(Option<Node>, Input), SyntaxError>)
    ensures r.Ok? && r.value.0.None? ==> r.value.1 == i
    ensures r.Ok? ==> (r.value.0.Some? <==> BarFollows(g, i))
    ensures r.Ok? && r.value.0.Some? ==> var (block, o) := (r.value.0.value, r.value.1);
              && block.BlockText? && |block.lines| >= 1
              && Advances(i, o) && o.pos > i.pos
              && !BarFollows(g, o)
              && LastLineEnds(g, i, (block.lines, o))
              && LinesWithin(g, i, (block.lines, o))
    ensures BarFollows(g, i) ==>
              var bar := g.whiteSpace(g.newLine(i).value);
              && (BlockLine(g, g.whiteSpace(Next(bar))).Err? ==> r.Err?)
              && (r.Ok? ==> r.value.0.value.lines[0] == BlockLine(g, g.whiteSpace(Next(bar))).value.0)
    ensures BarFollows(g, i) ==>
              var bar := g.whiteSpace(g.newLine(i).value);
              && (r.Ok? <==> BlockLines(g, bar).Ok?)
              && (r.Ok? ==> r.value == (Some(BlockText(BlockLines(g, bar).value.0)), BlockLines(g, bar).value.1))
    ensures IsNL(Peek(i)) && g.newLine(i).Err? ==> r == Err(g.newLine(i).error)
    ensures IsNL(Peek(i)) && g.newLine(i).Ok? && !BarFollows(g, i) ==> r == Ok((None, i))
    ensures !IsNL(Peek(i)) ==> r == Ok((None, i))
    ensures r.Err? ==> IsNL(Peek(i))
  {
    var next := Peek(i);
    if IsEOF(next) || !IsNL(next) then
      Ok((None, i))
    else
      var bufferPos := i.pos;
      var afterNewLine :- g.newLine(i);
      var afterSpace := g.whiteSpace(afterNewLine);
      if Peek(afterSpace) != '|' then
        Ok((None, Rewind(afterSpace, bufferPos)))
      else
        BlockEndsWithLastLine(g, afterSpace);
        BlockLinesAreLines(g, afterSpace);
        var lines :- BlockLines(g, afterSpace);
        BlockLater(g, i, afterSpace, lines);
        Ok((Some(BlockText(lines.0)), lines.1))
  }

  // ---------------------------------------------------------------------------
  // Examples
  // ---------------------------------------------------------------------------

  /** `a\{b` is one run of unquoted text, returned with its backslash. */
  lemma EscapedBraceKeptVerbatim()
    ensures ParseUnquoted(Cursor("a\\{b", 0)) == Ok((StringPrimitive("a\\{b"), Cursor("a\\{b", 4)))
  {
    var t := "a\\{b";
    assert t[0..0] == [];
    assert t[0..1] == [] + ['a'];
    RunStep([], 'a', UnquotedStops);
    assert t[0..2] == t[0..1] + ['\\'];
    RunStep(t[0..1], '\\', UnquotedStops);
    assert Escaping(t[0..2]) by { assert t[0..2][..1] == "a"; }
    assert t[0..3] == t[0..2] + ['{'];
    RunStep(t[0..2], '{', UnquotedStops);
    assert !Escaping(t[0..3]);
    calc {
      Scan(Cursor(t, 0), UnquotedStops, false, 0);
      Scan(Cursor(t, 1), UnquotedStops, false, 0);
      Scan(Cursor(t, 2), UnquotedStops, true, 0);
      Scan(Cursor(t, 3), UnquotedStops, false, 0);
      { assert t[0..4] == t[0..3] + ['b']; RunStep(t[0..3], 'b', UnquotedStops); }
      Scan(Cursor(t, 4), UnquotedStops, false, 0);
      Cursor(t, 4);
    }
    assert t[0..4] == t;
  }

  /** In `a\\{b` the second backslash is escaped, so the brace ends the run. */
  lemma DoubleBackslashDoesNotEscape()
    ensures ParseUnquoted(Cursor("a\\\\{b", 0)) == Ok((StringPrimitive("a\\\\"), Cursor("a\\\\{b", 3)))
  {
    var t := "a\\\\{b";
    assert t[0..0] == [];
    assert t[0..1] == [] + ['a'];
    RunStep([], 'a', UnquotedStops);
    assert t[0..2] == t[0..1] + ['\\'];
    RunStep(t[0..1], '\\', UnquotedStops);
    assert Escaping(t[0..2]) by { assert t[0..2][..1] == "a"; }
    assert t[0..3] == t[0..2] + ['\\'];
    RunStep(t[0..2], '\\', UnquotedStops);
    EscapingStep(t[0..2], '\\');
    assert !Escaping(t[0..3]);
    calc {
      Scan(Cursor(t, 0), UnquotedStops, false, 0);
      Scan(Cursor(t, 1), UnquotedStops, false, 0);
      Scan(Cursor(t, 2), UnquotedStops, true, 0);
      Scan(Cursor(t, 3), UnquotedStops, false, 0);
      Cursor(t, 3);
    }
    assert t[0..3] == "a\\\\";
  }
}

=== FILE: ast.dfy ===
/**
  The FTL syntax tree as one closed sum type. Fields are fixed at construction,
  as the source's `readonly` fields are.
 */
module Ast {
  import opened Wrappers

  datatype StringPrimitive = StringPrimitive(value: string)

  datatype Comment = Comment(value: string)

  datatype Node =
    | Text(primitive: StringPrimitive)
    | QuotedText(value: string)
    | BlockText(lines: seq<Node>)
    | Placeable(expression: Node)
    | Pattern(elements: seq<Node>)
    | Variable(identifier: StringPrimitive)
    | SelectExpression(expression: Node, memberList: MemberList)

  datatype Member = Member(key: StringPrimitive, value: Node, isDefault: bool)

  datatype MemberList = MemberList(members: seq<Member>)

  /** A message: its identifier, an optional pattern and member list, an attached comment. */
  datatype Entity = Entity(
    identifier: StringPrimitive,
    pattern: Option<Node>,
    memberList: Option<MemberList>,
    comment: Option<Comment>)

  /** What an entity is meant to carry: a pattern, a member list, or both. */
  predicate HasValue(e: Entity) {
    e.pattern.Some? || e.memberList.Some?
  }

  /**
    How the node kinds outside this model are written out: a string primitive, a
    member list, and any other node.
   */
  datatype Printer = Printer(
    primitive: StringPrimitive -> string,
    memberList: MemberList -> string,
    other: Node -> string)

  datatype AstError = NotImplemented

  /**
    `INode.Serialize`, writing to a string instead of a TextWriter: each node kind
    prints itself.
   */
  function Serialize(p: Printer, n: Node): string
    decreases n, 0
  {
    match n
    case Variable(identifier) => SerializeVariable(p, identifier)
    case SelectExpression(expression, memberList) => SerializeSelect(p, expression, memberList)
    case _ => p.other(n)
  }

  /** `Variable.Serialize`: `$` and the identifier. */
  function SerializeVariable(p: Printer, identifier: StringPrimitive): (r: string)
    ensures |r| == 1 + |p.primitive(identifier)| && r[0] == '$' && r[1..] == p.primitive(identifier)
  {
    "$" + p.primitive(identifier)
  }

  /** `SelectExpression.Serialize`: the scrutinee, ` ->`, and the member list. */
  function SerializeSelect(p: Printer, expression: Node, memberList: MemberList): (r: string)
    decreases expression, 1
    ensures var e := Serialize(p, expression);
            && |r| == |e| + 3 + |p.memberList(memberList)|
            && r[..|e|] == e
            && r[|e|..|e| + 3] == " ->"
            && r[|e| + 3..] == p.memberList(memberList)
  {
    Serialize(p, expression) + " ->" + p.memberList(memberList)
  }

  /** Two variables that print alike have identifiers that print alike. */
  lemma VariableSerializationDetermined(p: Printer, a: StringPrimitive, b: StringPrimitive)
    requires Serialize(p, Variable(a)) == Serialize(p, Variable(b))
    ensures p.primitive(a) == p.primitive(b)
  {
    assert Serialize(p, Variable(a))[1..] == Serialize(p, Variable(b))[1..];
  }

  /**
    A printed select expression splits back into its parts once the length of the
    scrutinee's text is known.
   */
  lemma SelectSerializationSplits(p: Printer, e1: Node, m1: MemberList, e2: Node, m2: MemberList)
    requires Serialize(p, SelectExpression(e1, m1)) == Serialize(p, SelectExpression(e2, m2))
    requires |Serialize(p, e1)| == |Serialize(p, e2)|
    ensures Serialize(p, e1) == Serialize(p, e2)
    ensures p.memberList(m1) == p.memberList(m2)
  {
    var r := Serialize(p, SelectExpression(e1, m1));
    var k := |Serialize(p, e1)|;
    assert r[..k] == Serialize(p, e1) && r[..k] == Serialize(p, e2);
    assert r[k + 3..] == p.memberList(m1) && r[k + 3..] == p.memberList(m2);
  }

  /**
    `INode.Optimize`: each node kind optimizes itself; the kinds outside this model
    are optimized by `other`.
   */
  function Optimize(n: Node, other: Node -> Result<Node, AstError>): Result<Node, AstError> {
    match n
    case Variable(_) => OptimizeVariable(n)
    case SelectExpression(_, _) => OptimizeSelect(n)
    case _ => other(n)
  }

  /** `Variable.Optimize`: a variable is already minimal, so optimizing it is idempotent. */
  function OptimizeVariable(n: Node): (r: Result<Node, AstError>)
    requires n.Variable?
    ensures r.Ok? && r.value.Variable? && r.value.identifier == n.identifier
    ensures OptimizeVariable(r.value) == r
  {
    Ok(n)
  }

  /** `SelectExpression.Optimize`: not implemented, so it always fails. */
  function OptimizeSelect(n: Node): (r: Result<Node, AstError>)
    requires n.SelectExpression?
    ensures r == Err(NotImplemented)
  {
    Err(NotImplemented)
  }
}

=== FILE: char_stream.dfy ===
/**
  The character stream of L20n/io/CharStream.cs as an immutable record with pure
  transitions. The StreamReader underneath is replaced by the sequence of characters
  it has not yet delivered; everything else the class keeps is a field here.
 */
module CharStream {
  import opened Wrappers
  import opened Chars
  import opened Numerals

  /** `m_Position`, `m_NewLineCount` and `m_NewLineStartPosition`. */
  datatype Counters = Counters(position: nat, newLineCount: nat, newLineStart: nat)

  /**
    A ParseException built by CreateException carries the detailed position and the
    caller's text, rendered by `Message`; a plain Exception (buffering calls out of
    order) carries only its text.
   */
  datatype Error =
    | ParseError(position: string, detail: string)
    | Misuse(message: string)

  datatype Stream = Stream(
    source: seq<char>,   // what the underlying reader has not delivered yet
    counters: Counters,
    queue: seq<char>,    // `m_StreamBuffer`: characters kept for replay
    buffering: bool,     // `m_IsBuffering`
    bookmark: Counters)  // the counters captured by StartBuffering

  /** The state the constructors leave behind, reading `text`. */
  function Open(text: seq<char>): Stream {
    Stream(text, Counters(0, 0, 0), [], false, Counters(0, 0, 0))
  }

  function Position(s: Stream): nat {
    s.counters.position
  }

  // ---------------------------------------------------------------------------
  // Views: what the stream will deliver from here on
  // ---------------------------------------------------------------------------

  /** The characters reading delivers from raw text: `\r\n` arrives as one `\n`. */
  function Fold(src: seq<char>): seq<char> {
    if |src| == 0 then []
    else if src[0] == '\r' && |src| > 1 && src[1] == NL then [NL] + Fold(src[2..])
    else [src[0]] + Fold(src[1..])
  }

  /** What a peek sees before each of those reads: a `\r\n` pair is seen as its `\r`. */
  function PeekFold(src: seq<char>): seq<char> {
    if |src| == 0 then []
    else if src[0] == '\r' && |src| > 1 && src[1] == NL then ['\r'] + PeekFold(src[2..])
    else [src[0]] + PeekFold(src[1..])
  }

  /** The queued characters that reads replay: none while buffering. */
  function Pending(s: Stream): seq<char> {
    if s.buffering then [] else s.queue
  }

  /** Every character that successive reads will return, in order. */
  function Ahead(s: Stream): seq<char> {
    Pending(s) + Fold(s.source)
  }

  /** For each character of `Ahead`, what a peek just before reading it returns. */
  function Peeked(s: Stream): seq<char> {
    Pending(s) + PeekFold(s.source)
  }

  lemma {:induction false} FoldsAgree(src: seq<char>)
    ensures |PeekFold(src)| == |Fold(src)|
    ensures forall k :: 0 <= k < |Fold(src)| ==>
              PeekFold(src)[k] == Fold(src)[k] || (PeekFold(src)[k] == '\r' && Fold(src)[k] == NL)
    decreases |src|
  {
    if |src| == 0 {
    } else if src[0] == '\r' && |src| > 1 && src[1] == NL {
      FoldsAgree(src[2..]);
      forall k | 1 <= k < |Fold(src)|
        ensures PeekFold(src)[k] == Fold(src)[k] || (PeekFold(src)[k] == '\r' && Fold(src)[k] == NL)
      {
        assert PeekFold(src)[k] == PeekFold(src[2..])[k - 1];
        assert Fold(src)[k] == Fold(src[2..])[k - 1];
      }
    } else {
      FoldsAgree(src[1..]);
    }
  }

  lemma FoldShorter(src: seq<char>)
    ensures |Fold(src)| <= |src|
  {
  }

  /** A peek and the read after it differ only where a `\r\n` pair is folded. */
  lemma ViewsAgree(s: Stream)
    ensures |Peeked(s)| == |Ahead(s)|
    ensures forall k :: 0 <= k < |Ahead(s)| ==>
              Peeked(s)[k] == Ahead(s)[k] || (Peeked(s)[k] == '\r' && Ahead(s)[k] == NL)
  {
    FoldsAgree(s.source);
    FoldShorter(s.source);
    var p := Pending(s);
    forall k | 0 <= k < |Ahead(s)|
      ensures Peeked(s)[k] == Ahead(s)[k] || (Peeked(s)[k] == '\r' && Ahead(s)[k] == NL)
    {
      if k >= |p| {
        assert Peeked(s)[k] == PeekFold(s.source)[k - |p|];
        assert Ahead(s)[k] == Fold(s.source)[k - |p|];
      }
    }
  }

  // ---------------------------------------------------------------------------
  // Position tracking
  // ---------------------------------------------------------------------------

  /** `MovePosition(char)`: one character further; a newline starts a new line. */
  function Step(k: Counters, c: char): (r: Counters)
    ensures r.position == k.position + 1
    ensures r.newLineCount == k.newLineCount + (if IsNL(c) then 1 else 0)
    ensures r.newLineStart == if IsNL(c) then r.position else k.newLineStart
  {
    if IsNL(c) then Counters(k.position + 1, k.newLineCount + 1, k.position + 1)
    else k.(position := k.position + 1)
  }

  /** The counters after reading every character of `t` one by one. */
  function Advance(k: Counters, t: seq<char>): Counters {
    if |t| == 0 then k else Step(Advance(k, t[..|t| - 1]), t[|t| - 1])
  }

  lemma {:induction false} AdvanceAppend(k: Counters, a: seq<char>, b: seq<char>)
    ensures Advance(k, a + b) == Advance(Advance(k, a), b)
    decreases |b|
  {
    if |b| > 0 {
      assert (a + b)[..|a + b| - 1] == a + b[..|b| - 1];
      AdvanceAppend(k, a, b[..|b| - 1]);
    } else {
      assert a + b == a;
    }
  }

  lemma AdvanceOne(k: Counters, c: char)
    ensures Advance(k, [c]) == Step(k, c)
  {
    assert [c][..0] == [];
  }

  /**
    `MovePosition(char[])`, used on queued characters: the position moves by the
    length, a `\n`, a `\r` or a `\r\n` pair counts one line break, and a line
    break sets the line start to the position after the whole block.
   */
  function MoveOver(k: Counters, cs: seq<char>): (r: Counters)
    ensures r.position == k.position + |cs|
    ensures r.newLineCount == k.newLineCount + LineBreaks(cs)
    ensures r.newLineCount > k.newLineCount ==> r.newLineStart == r.position
    ensures r.newLineCount == k.newLineCount ==> r.newLineStart == k.newLineStart
  {
    var breaks := LineBreaks(cs);
    Counters(k.position + |cs|, k.newLineCount + breaks,
             if breaks > 0 then k.position + |cs| else k.newLineStart)
  }

  /** The line breaks the loop of `MovePosition(char[])` counts. */
  function LineBreaks(cs: seq<char>): (r: nat)
    ensures r <= |cs|
    ensures r == 0 <==> forall k :: 0 <= k < |cs| ==> !IsNL(cs[k])
  {
    if |cs| == 0 then 0
    else if cs[0] == NL then 1 + LineBreaks(cs[1..])
    else if cs[0] == '\r' && |cs| > 1 && cs[1] == NL then 1 + LineBreaks(cs[2..])
    else if cs[0] == '\r' then 1 + LineBreaks(cs[1..])
    else LineBreaks(cs[1..])
  }

  /**
    What a successful read of `t` leaves behind: `t` is what was ahead, the rest is
    still ahead, the counters moved over `t`; while buffering `t` is queued, and
    outside a bookmark the queue is drained first, in front of the source.
   */
  predicate Consumed(s: Stream, t: seq<char>, s': Stream) {
    && |t| <= |Ahead(s)|
    && |t| <= |Peeked(s)|
    && t == Ahead(s)[..|t|]
    && Ahead(s') == Ahead(s)[|t|..]
    && Peeked(s') == Peeked(s)[|t|..]
    && s'.counters == Advance(s.counters, t)
    && s'.buffering == s.buffering
    && s'.bookmark == s.bookmark
    && (s.buffering ==> s'.queue == s.queue + t)
    && (!s.buffering ==> Replayed(s, |t|, s'))
  }

  /**
    Outside a bookmark, reading `n` characters takes them from the replay queue
    while it lasts, leaving the source alone; once it is used up the queue stays empty.
   */
  predicate Replayed(s: Stream, n: nat, s': Stream) {
    if n <= |s.queue| then s'.queue == s.queue[n..] && s'.source == s.source
    else s'.queue == []
  }

  lemma ReplayedTrans(s: Stream, a: nat, s1: Stream, b: nat, s2: Stream)
    requires Replayed(s, a, s1) && Replayed(s1, b, s2)
    ensures Replayed(s, a + b, s2)
  {
    if a <= |s.queue| && b <= |s1.queue| {
      assert s.queue[a..][b..] == s.queue[a + b..];
    }
  }

  lemma ConsumedNothing(s: Stream)
    ensures Consumed(s, [], s)
  {
  }

  lemma ConsumedTrans(s: Stream, a: seq<char>, s1: Stream, b: seq<char>, s2: Stream)
    requires Consumed(s, a, s1) && Consumed(s1, b, s2)
    ensures Consumed(s, a + b, s2)
  {
    assert s2.counters == Advance(s.counters, a + b) by { AdvanceAppend(s.counters, a, b); }
    var x, y, z := Ahead(s), Ahead(s1), Ahead(s2);
    PrefixTrans(x, a, y, b, z);
    var px, py, pz := Peeked(s), Peeked(s1), Peeked(s2);
    DropTrans(px, |a|, py, |b|, pz);
    if s.buffering {
      Assoc(s.queue, a, b);
    } else {
      ReplayedTrans(s, |a|, s1, |b|, s2);
    }
  }

  lemma Assoc(q: seq<char>, a: seq<char>, b: seq<char>)
    ensures (q + a) + b == q + (a + b)
  {
  }

  lemma PrefixTrans(x: seq<char>, a: seq<char>, y: seq<char>, b: seq<char>, z: seq<char>)
    requires |a| <= |x| && a == x[..|a|] && y == x[|a|..]
    requires |b| <= |y| && b == y[..|b|] && z == y[|b|..]
    ensures |a + b| <= |x| && a + b == x[..|a + b|] && z == x[|a + b|..]
  {
    assert x[..|a + b|] == x[..|a|] + x[|a|..][..|b|];
  }

  lemma DropTrans(x: seq<char>, m: nat, y: seq<char>, n: nat, z: seq<char>)
    requires m <= |x| && y == x[m..]
    requires n <= |y| && z == y[n..]
    ensures m + n <= |x| && z == x[m + n..]
  {
  }

  // ---------------------------------------------------------------------------
  // Diagnostics
  // ---------------------------------------------------------------------------

  /** `ComputeDetailedPosition`: 1-based line and column, the column shifted by `offset`. */
  function ComputeDetailedPosition(s: Stream, offset: int): (r: string)
    ensures ParsePosition(r) == Some((s.counters.newLineCount + 1,
                                      s.counters.position + offset - s.counters.newLineStart + 1))
    ensures ' ' !in r
  {
    var line := s.counters.newLineCount + 1;
    var column := s.counters.position + offset - s.counters.newLineStart + 1;
    PositionRoundTrip(line, column);
    PositionText(line, column)
  }

  function PositionText(line: int, column: int): string {
    "L" + IntToString(line) + ":" + IntToString(column)
  }

  lemma PositionRoundTrip(line: int, column: int)
    ensures ParsePosition(PositionText(line, column)) == Some((line, column))
    ensures ' ' !in PositionText(line, column)
  {
    var a, b := IntToString(line), IntToString(column);
    var body := a + [':'] + b;
    var p := PositionText(line, column);
    assert p == "L" + body;
    DropPrefix("L", body);
    assert p[0] == 'L' && p[1..] == body;
    SplitAtColon(a, b);
    ParseIntToString(line);
    ParseIntToString(column);
    assert ParseInt(body[..|a|]) == Some(line);
    assert ParseInt(body[|a| + 1..]) == Some(column);
    NoSpace(a, b);
  }

  lemma SplitAtColon(a: string, b: string)
    requires forall k :: 0 <= k < |a| ==> IsDigit(a[k]) || a[k] == '-'
    ensures IndexOf(a + [':'] + b, ':') == Some(|a|)
    ensures (a + [':'] + b)[..|a|] == a && (a + [':'] + b)[|a| + 1..] == b
  {
    assert ':' !in a;
    IndexOfAfter(a, ':', b);
  }

  lemma NoSpace(a: string, b: string)
    requires forall k :: 0 <= k < |a| ==> IsDigit(a[k]) || a[k] == '-'
    requires forall k :: 0 <= k < |b| ==> IsDigit(b[k]) || b[k] == '-'
    ensures ' ' !in "L" + a + ":" + b
  {
    assert ' ' !in a && ' ' !in b;
  }

  /** Reads `L<line>:<column>` back. */
  function ParsePosition(p: string): Option<(int, int)> {
    if |p| == 0 || p[0] != 'L' then None
    else
      var body := p[1..];
      match IndexOf(body, ':')
      case None => None
      case Some(j) =>
        match (ParseInt(body[..j]), ParseInt(body[j + 1..]))
        case (Some(line), Some(column)) => Some((line, column))
        case _ => None
  }

  const DiagnosticPrefix: string := "unexpected situation at "

  /** The text of an exception, as its `Message` property shows it. */
  function Message(e: Error): string {
    match e
    case ParseError(position, detail) => DiagnosticPrefix + position + ": " + detail
    case Misuse(message) => message
  }

  /**
    `CreateException`: an exception naming the line and column, the column shifted
    by `offset`, and carrying the caller's text; an inner cause is not modelled.
   */
  function CreateException(s: Stream, msg: string, offset: int): (r: Error)
    ensures r.ParseError? && r.detail == msg && ' ' !in r.position
    ensures ParsePosition(r.position) == Some((s.counters.newLineCount + 1,
                                               s.counters.position + offset - s.counters.newLineStart + 1))
  {
    ParseError(ComputeDetailedPosition(s, offset), msg)
  }

  /** The rendered text of a positioned exception reads back into line, column and text. */
  lemma MessageReadsBack(e: Error)
    requires e.ParseError? && ' ' !in e.position && ParsePosition(e.position).Some?
    ensures ParseDiagnostic(Message(e)) ==
            Some((ParsePosition(e.position).value.0, ParsePosition(e.position).value.1, e.detail))
  {
    assert Message(e) == DiagnosticPrefix + e.position + ": " + e.detail;
    DiagnosticRoundTrip(e.position, e.detail);
  }

  lemma DiagnosticRoundTrip(position: string, msg: string)
    requires ' ' !in position && ParsePosition(position).Some?
    ensures ParseDiagnostic(DiagnosticPrefix + position + ": " + msg)
            == Some((ParsePosition(position).value.0, ParsePosition(position).value.1, msg))
  {
    var m := DiagnosticPrefix + position + ": " + msg;
    var rest := (position + [':']) + [' '] + msg;
    assert m == DiagnosticPrefix + rest;
    DropPrefix(DiagnosticPrefix, rest);
    IndexOfAfter(position + [':'], ' ', msg);
    var j := |position| + 1;
    assert rest[j - 1] == ':';
    assert rest[..j - 1] == position;
    assert rest[j + 1..] == msg;
  }

  lemma DropPrefix(p: string, rest: string)
    ensures (p + rest)[..|p|] == p && (p + rest)[|p|..] == rest
  {
  }

  /** Reads a diagnostic back into line, column and message. */
  function ParseDiagnostic(m: string): Option<(int, int, string)> {
    if |m| < |DiagnosticPrefix| || m[..|DiagnosticPrefix|] != DiagnosticPrefix then None
    else
      var rest := m[|DiagnosticPrefix|..];
      match IndexOf(rest, ' ')
      case None => None
      case Some(j) =>
        if j == 0 || rest[j - 1] != ':' then None
        else match ParsePosition(rest[..j - 1])
          case None => None
          case Some(lc) => Some((lc.0, lc.1, rest[j + 1..]))
  }

  // ---------------------------------------------------------------------------
  // Reading
  // ---------------------------------------------------------------------------

  /** `EndOfStream`: the stream has nothing left to deliver. */
  function EndOfStream(s: Stream): (r: bool)
    ensures r <==> |Ahead(s)| == 0
  {
    (s.buffering || |s.queue| == 0) && |s.source| == 0
  }

  /**
    `PeekNext`: the head of the replay queue when not buffering, otherwise the next
    raw character, and `EOF` at the end. A `\r\n` pair is seen as `\r`.
   */
  function PeekNext(s: Stream): (c: char)
    ensures c == if |Ahead(s)| == 0 then EOF else Peeked(s)[0]
  {
    if !s.buffering && |s.queue| > 0 then s.queue[0]
    else if |s.source| == 0 then EOF
    else s.source[0]
  }

  /**
    `PeekNextUnbuffered`: the next raw character, ignoring the replay queue. It is
    what PeekNext shows whenever the queue is not being replayed.
   */
  function PeekNextUnbuffered(s: Stream): (c: char)
    ensures s.buffering || |s.queue| == 0 ==> c == PeekNext(s)
    ensures c == if |s.source| == 0 then EOF else PeekFold(s.source)[0]
  {
    if |s.source| == 0 then EOF else s.source[0]
  }

  /** What a failed read reports; the end-of-input exception it wraps is not modelled. */
  const ReadFailure: string := "next character could not be read"

  /**
    `ReadNext`: takes the next character from the replay queue when not buffering,
    otherwise from the source (folding `\r\n`), queues it while buffering, and moves
    the counters over it. Reading past the end is an error.
   */
  function ReadNext(s: Stream): (r: Result<(char, Stream), Error>)
    ensures r.Ok? <==> !EndOfStream(s)
    ensures r.Ok? ==> Consumed(s, [r.value.0], r.value.1)
    ensures r.Ok? ==> r.value.1.counters == Step(s.counters, r.value.0)
    ensures (s.buffering || |s.queue| == 0) && |s.source| >= 2 && s.source[0] == '\r' && s.source[1] == NL ==>
              r.Ok? && r.value.0 == NL && r.value.1.source == s.source[2..]
    ensures r.Err? ==> && r.error.ParseError? && r.error.detail == ReadFailure
                       && ParsePosition(r.error.position) ==
                          Some((s.counters.newLineCount + 1, s.counters.position - s.counters.newLineStart + 1))
  {
    if !s.buffering && |s.queue| > 0 then
      var c := s.queue[0];
      QueuedReadConsumes(s);
      Ok((c, s.(queue := s.queue[1..], counters := Step(s.counters, c))))
    else if |s.source| == 0 then
      // the end-of-input exception is caught and re-wrapped inside ReadNext itself
      Err(CreateException(s, ReadFailure, 0))
    else
      var folds := s.source[0] == '\r' && |s.source| > 1 && s.source[1] == NL;
      var c := if folds then NL else s.source[0];
      var rest := if folds then s.source[2..] else s.source[1..];
      var queue := if s.buffering then s.queue + [c] else s.queue;
      RawReadConsumes(s, c, rest);
      Ok((c, s.(source := rest, queue := queue, counters := Step(s.counters, c))))
  }

  /** Taking the head of the replay queue consumes exactly that character. */
  lemma QueuedReadConsumes(s: Stream)
    requires !s.buffering && |s.queue| > 0
    ensures Consumed(s, [s.queue[0]], s.(queue := s.queue[1..], counters := Step(s.counters, s.queue[0])))
  {
    AdvanceOne(s.counters, s.queue[0]);
  }

  /**
    Taking one character from the source (a `\r\n` pair as one `\n`) consumes
    exactly that character; the peek that follows sees the source, never the queue.
   */
  lemma RawReadConsumes(s: Stream, c: char, rest: string)
    requires s.buffering || |s.queue| == 0
    requires |s.source| > 0
    requires c == (if s.source[0] == '\r' && |s.source| > 1 && s.source[1] == NL then NL else s.source[0])
    requires rest == (if s.source[0] == '\r' && |s.source| > 1 && s.source[1] == NL then s.source[2..] else s.source[1..])
    ensures Consumed(s, [c], s.(source := rest, queue := if s.buffering then s.queue + [c] else s.queue,
                                counters := Step(s.counters, c)))
  {
    assert Fold(s.source) == [c] + Fold(rest);
    assert PeekFold(s.source) == [s.source[0]] + PeekFold(rest);
    assert Pending(s) == [];
    AdvanceOne(s.counters, c);
  }

  /** `SkipNext`: reads one character and drops it. */
  function SkipNext(s: Stream): (r: Result<Stream, Error>)
    ensures r.Ok? <==> !EndOfStream(s)
    ensures r.Ok? ==> Consumed(s, Ahead(s)[..1], r.value)
  {
    var p :- ReadNext(s);
    Ok(p.1)
  }

  /** `ReadBlock`: exactly `n` reads; too few characters left is an error. */
  function ReadBlock(s: Stream, n: nat): (r: Result<(string, Stream), Error>)
    decreases n
    ensures r.Ok? <==> n <= |Ahead(s)|
    ensures r.Ok? ==> |r.value.0| == n && Consumed(s, r.value.0, r.value.1)
    ensures r.Err? ==> r.error.ParseError?
  {
    if n == 0 then
      ConsumedNothing(s);
      Ok(([], s))
    else
      var first :- ReadNext(s);
      var rest :- ReadBlock(first.1, n - 1);
      ConsumedTrans(s, [first.0], first.1, rest.0, rest.1);
      Ok(([first.0] + rest.0, rest.1))
  }

  /** `SkipBlock`: `n` reads whose characters are dropped. */
  function SkipBlock(s: Stream, n: nat): (r: Result<Stream, Error>)
    ensures r.Ok? <==> n <= |Ahead(s)|
    ensures r.Ok? ==> Consumed(s, Ahead(s)[..n], r.value)
  {
    var p :- ReadBlock(s, n);
    Ok(p.1)
  }

  /** `SkipCharacter`: reads one character and fails, pointing at it, if it is not `expected`. */
  function SkipCharacter(s: Stream, expected: char): (r: Result<Stream, Error>)
    ensures r.Ok? <==> |Ahead(s)| > 0 && Ahead(s)[0] == expected
    ensures r.Ok? ==> Consumed(s, [expected], r.value)
    ensures r.Err? ==> r.error.ParseError?
  {
    match ReadNext(s)
    case Err(e) => Err(e)
    case Ok((c, s1)) =>
      ReadOne(s, c, s1);
      if c != expected then
        Err(CreateException(s1, MismatchMessage(c, expected), -1))
      else
        Ok(s1)
  }

  /**
    SkipCharacter's errors: at the end of the input the failed read's, otherwise the
    mismatch, raised after the read and one column back, so on the character read.
   */
  lemma SkipCharacterReports(s: Stream, expected: char)
    requires SkipCharacter(s, expected).Err?
    ensures |Ahead(s)| == 0 ==> SkipCharacter(s, expected).error.detail == ReadFailure
    ensures |Ahead(s)| > 0 ==>
              var k := Step(s.counters, Ahead(s)[0]);
              var e := SkipCharacter(s, expected).error;
              && e.detail == MismatchMessage(Ahead(s)[0], expected)
              && ParsePosition(e.position) == Some((k.newLineCount + 1, k.position - k.newLineStart))
  {
    var r := ReadNext(s);
    if r.Ok? {
      ReadOne(s, r.value.0, r.value.1);
    }
  }

  function MismatchMessage(found: char, expected: char): string {
    "next character was " + [found] + ", while " + [expected] + " was expected"
  }

  /** A one-character read: `c` was the first character ahead. */
  lemma ReadOne(s: Stream, c: char, s1: Stream)
    requires Consumed(s, [c], s1)
    ensures |Ahead(s)| > 0 && Ahead(s)[0] == c
  {
    assert Ahead(s)[..1] == [c];
  }

  /** `SkipString`: `SkipCharacter` for each character of `expected`, in order. */
  function SkipString(s: Stream, expected: string): (r: Result<Stream, Error>)
    decreases |expected|
    ensures r.Ok? <==> expected <= Ahead(s)
    ensures r.Ok? ==> Consumed(s, expected, r.value)
    ensures r.Err? ==> r.error.ParseError?
  {
    if |expected| == 0 then
      ConsumedNothing(s);
      Ok(s)
    else
      var s1 :- SkipCharacter(s, expected[0]);
      var s2 :- SkipString(s1, expected[1..]);
      ConsumedTrans(s, [expected[0]], s1, expected[1..], s2);
      assert [expected[0]] + expected[1..] == expected;
      Ok(s2)
  }

  // ---------------------------------------------------------------------------
  // Predicate-driven reading
  // ---------------------------------------------------------------------------

  /**
    A maximal span: `t` was read from `s`, the peek before each of its characters
    gave `p(c) == want`, and the next peek does not (or nothing is left).
   */
  predicate Spanned(s: Stream, p: char -> bool, want: bool, t: seq<char>, s': Stream) {
    && Consumed(s, t, s')
    && (forall k :: 0 <= k < |t| ==> p(Peeked(s)[k]) == want)
    && (|t| == |Ahead(s)| || p(Peeked(s)[|t|]) != want)
  }

  /** The loop shared by ReadWhile, ReadUntil, SkipWhile and SkipUntil. */
  method ReadSpan(s: Stream, p: char -> bool, want: bool) returns (t: string, s': Stream)
    ensures Spanned(s, p, want, t, s')
  {
    t, s' := [], s;
    ConsumedNothing(s);
    ViewsAgree(s);
    while !EndOfStream(s') && p(PeekNext(s')) == want
      invariant Consumed(s, t, s')
      invariant forall k :: 0 <= k < |t| ==> p(Peeked(s)[k]) == want
      decreases |Ahead(s')|
    {
      var r := ReadNext(s');
      ConsumedTrans(s, t, s', [r.value.0], r.value.1);
      t, s' := t + [r.value.0], r.value.1;
    }
  }

  /** `ReadWhile`: the longest run whose peeks satisfy `p`, possibly empty. */
  method ReadWhile(s: Stream, p: char -> bool) returns (t: string, s': Stream)
    ensures Spanned(s, p, true, t, s')
  {
    t, s' := ReadSpan(s, p, true);
  }

  /** `ReadUntil`: the longest run whose peeks fail `p`, possibly empty. */
  method ReadUntil(s: Stream, p: char -> bool) returns (t: string, s': Stream)
    ensures Spanned(s, p, false, t, s')
  {
    t, s' := ReadSpan(s, p, false);
  }

  /** `SkipWhile`: as ReadWhile, reporting only how many characters were consumed. */
  method SkipWhile(s: Stream, p: char -> bool) returns (n: nat, s': Stream)
    ensures n <= |Ahead(s)| && Spanned(s, p, true, Ahead(s)[..n], s')
  {
    var t;
    t, s' := ReadSpan(s, p, true);
    n := |t|;
  }

  /** `SkipUntil`: as ReadUntil, reporting only how many characters were consumed. */
  method SkipUntil(s: Stream, p: char -> bool) returns (n: nat, s': Stream)
    ensures n <= |Ahead(s)| && Spanned(s, p, false, Ahead(s)[..n], s')
  {
    var t;
    t, s' := ReadSpan(s, p, false);
    n := |t|;
  }

  /**
    `ReadLine`: the text before the next line break, which is consumed but not
    returned; at the end of the input the rest is the line.
   */
  method ReadLine(s: Stream) returns (line: string, s': Stream)
    ensures |line| <= |Ahead(s)| && line == Ahead(s)[..|line|]
    ensures forall k :: 0 <= k < |line| ==> !IsNL(line[k])
    ensures |line| == |Ahead(s)| ==> Ahead(s') == [] && Consumed(s, line, s')
    ensures |line| < |Ahead(s)| ==> && IsNL(Ahead(s)[|line|])
                                    && Ahead(s') == Ahead(s)[|line| + 1..]
                                    && Consumed(s, line + [Ahead(s)[|line|]], s')
  {
    var rest;
    line, rest := ReadUntil(s, IsNL);
    ViewsAgree(s);
    s' := rest;
    if !EndOfStream(rest) {
      var r := ReadNext(rest);
      var c := r.value.0;
      assert Ahead(rest) == Ahead(s)[|line|..];
      assert c == Ahead(s)[|line|];
      ConsumedTrans(s, line, rest, [c], r.value.1);
      s' := r.value.1;
    }
  }

  /** No `\r` immediately followed by `\n`. */
  predicate NoCrLf(cs: seq<char>) {
    forall k :: 0 <= k < |cs| - 1 ==> !(cs[k] == '\r' && cs[k + 1] == NL)
  }

  lemma {:induction false} FoldWithoutCrLf(src: seq<char>)
    ensures NoCrLf(src) ==> Fold(src) == src
    decreases |src|
  {
    if NoCrLf(src) && |src| > 0 {
      assert NoCrLf(src[1..]) by {
        forall k | 0 <= k < |src[1..]| - 1
          ensures !(src[1..][k] == '\r' && src[1..][k + 1] == NL)
        {
          assert src[1..][k] == src[k + 1] && src[1..][k + 1] == src[k + 2];
        }
      }
      FoldWithoutCrLf(src[1..]);
      if |src| > 1 {
        assert !(src[0] == '\r' && src[1] == NL);
      }
      assert src == [src[0]] + src[1..];
    }
  }

  /**
    `ReadUntilEnd`: the whole replay queue (even while buffering) followed by the
    raw rest of the source, with no `\r\n` folding; the counters move over it as one
    block and nothing is left. When nothing is being replayed and the source holds
    no `\r\n` pair, that is exactly what reading one by one would have delivered.
   */
  function ReadUntilEnd(s: Stream): (r: (string, Stream))
    ensures |r.0| == |s.queue| + |s.source|
    ensures r.0[..|s.queue|] == s.queue && r.0[|s.queue|..] == s.source
    ensures EndOfStream(r.1) && r.1.queue == [] && r.1.buffering == s.buffering
    ensures r.1.counters == MoveOver(s.counters, r.0)
    ensures !s.buffering && NoCrLf(s.source) ==> r.0 == Ahead(s)
  {
    var text := s.queue + s.source;
    FoldWithoutCrLf(s.source);
    (text, s.(source := [], queue := [], counters := MoveOver(s.counters, text)))
  }

  // ---------------------------------------------------------------------------
  // Buffering
  // ---------------------------------------------------------------------------

  /** `FlushBuffer`: drops the replay queue, moving the counters over it as one block. */
  function FlushBuffer(s: Stream): (r: Stream)
    ensures r.queue == [] && r.source == s.source && r.buffering == s.buffering
    ensures r.bookmark == s.bookmark
    ensures r.counters.position == s.counters.position + |s.queue|
    ensures r.counters.newLineCount == s.counters.newLineCount + LineBreaks(s.queue)
    ensures r.counters.newLineStart ==
              if LineBreaks(s.queue) > 0 then r.counters.position else s.counters.newLineStart
  {
    s.(counters := MoveOver(s.counters, s.queue), queue := [])
  }

  /**
    `StartBuffering`: opens the single bookmark. Still-queued characters are first
    passed over by the counters but stay queued. Nesting is a misuse.
   */
  function StartBuffering(s: Stream): (r: Result<Stream, Error>)
    ensures r.Err? <==> s.buffering
    ensures r.Err? ==> r.error.Misuse?
    ensures r.Ok? ==> && r.value.buffering
                      && r.value.bookmark == r.value.counters
                      && r.value.counters == MoveOver(s.counters, s.queue)
                      && r.value.counters.position == s.counters.position + |s.queue|
                      && r.value.queue == s.queue && r.value.source == s.source
  {
    if s.buffering then Err(Misuse("buffering already started"))
    else
      var k := if |s.queue| > 0 then MoveOver(s.counters, s.queue) else s.counters;
      Ok(s.(buffering := true, counters := k, bookmark := k))
  }

  /**
    `StopBuffering`: closes the bookmark and puts the counters back where it was
    opened; the queued characters are replayed by later reads. Without an open
    bookmark it is a misuse.
   */
  function StopBuffering(s: Stream): (r: Result<Stream, Error>)
    ensures r.Err? <==> !s.buffering
    ensures r.Err? ==> r.error.Misuse?
    ensures r.Ok? ==> && !r.value.buffering
                      && r.value.counters == s.bookmark
                      && r.value.queue == s.queue && r.value.source == s.source
                      && Ahead(r.value) == s.queue + Ahead(s)
  {
    if !s.buffering then Err(Misuse("buffering already stopped"))
    else Ok(s.(buffering := false, counters := s.bookmark))
  }
}

=== FILE: char_stream_replay.dfy ===
/**
  Properties of the CharStream bookmark and of its position tracking that relate
  several calls: rewind and replay, line/column arithmetic, and how the block move
  used by FlushBuffer and StartBuffering compares with reading one by one.
 */
module Replay {
  import opened Wrappers
  import opened Chars
  import opened CharStream

  /** The number of newline characters in `t`. */
  function NewLines(t: seq<char>): nat {
    if |t| == 0 then 0 else NewLines(t[..|t| - 1]) + (if IsNL(t[|t| - 1]) then 1 else 0)
  }

  /** The index just after the last newline of `t`, or 0 when there is none. */
  function LastLineStart(t: seq<char>): nat {
    if |t| == 0 then 0 else if IsNL(t[|t| - 1]) then |t| else LastLineStart(t[..|t| - 1])
  }

  lemma {:induction false} LastLineStartBound(t: seq<char>)
    ensures LastLineStart(t) <= |t|
    ensures NewLines(t) == 0 ==> LastLineStart(t) == 0
    decreases |t|
  {
    if |t| > 0 {
      LastLineStartBound(t[..|t| - 1]);
    }
  }

  /**
    Reading `t` one character at a time moves the position by `|t|`, counts its
    newlines, and leaves the line start just after the last of them.
   */
  lemma {:induction false} AdvanceClosedForm(k: Counters, t: seq<char>)
    ensures Advance(k, t).position == k.position + |t|
    ensures Advance(k, t).newLineCount == k.newLineCount + NewLines(t)
    ensures Advance(k, t).newLineStart ==
              if NewLines(t) == 0 then k.newLineStart else k.position + LastLineStart(t)
    decreases |t|
  {
    if |t| > 0 {
      AdvanceClosedForm(k, t[..|t| - 1]);
    }
  }

  /**
    Line/column correctness: after reading `t` from a fresh stream the reported
    line is one more than the newlines read and the column one more than the
    characters read since the last of them.
   */
  lemma DetailedPositionAfterReading(text: seq<char>, n: nat, t: string, s': Stream)
    requires ReadBlock(Open(text), n) == Ok((t, s'))
    ensures ParsePosition(ComputeDetailedPosition(s', 0)) ==
            Some((NewLines(t) + 1, |t| - LastLineStart(t) + 1))
  {
    assert Consumed(Open(text), t, s');
    PositionAfterAdvance(s', t);
  }

  lemma PositionAfterAdvance(s': Stream, t: string)
    requires s'.counters == Advance(Counters(0, 0, 0), t)
    ensures ParsePosition(ComputeDetailedPosition(s', 0)) ==
            Some((NewLines(t) + 1, |t| - LastLineStart(t) + 1))
  {
    AdvanceClosedForm(Counters(0, 0, 0), t);
    LastLineStartBound(t);
  }

  /** Reading `[c] + t` is one step over `c` followed by reading `t`. */
  lemma AdvanceCons(k: Counters, c: char, t: seq<char>)
    ensures Advance(Step(k, c), t) == Advance(k, [c] + t)
  {
    AdvanceAppend(k, [c], t);
    assert [c][..0] == [];
  }

  /** Reads outside a bookmark take the replay queue first, in order, touching nothing else. */
  lemma ReplayDrainsQueue(s: Stream, n: nat)
    requires !s.buffering && n <= |s.queue|
    ensures ReadBlock(s, n) ==
            Ok((s.queue[..n], s.(queue := s.queue[n..], counters := Advance(s.counters, s.queue[..n]))))
  {
    assert Ahead(s)[..n] == s.queue[..n] by {
      assert Ahead(s) == s.queue + Fold(s.source);
    }
    var r := ReadBlock(s, n);
    assert Replayed(s, n, r.value.1);
  }

  /**
    Rewind and replay: bookmark, read `n` characters, rewind. The counters are
    back where they were, the same characters lie ahead, and reading `n` again
    returns the same text and ends in the state the speculative read reached,
    with the queue drained.
   */
  lemma RewindReplays(s: Stream, s1: Stream, t: string, s2: Stream, s3: Stream, n: nat)
    requires !s.buffering && s.queue == []
    requires StartBuffering(s) == Ok(s1)
    requires ReadBlock(s1, n) == Ok((t, s2))
    requires StopBuffering(s2) == Ok(s3)
    ensures s3.counters == s.counters
    ensures Ahead(s3) == Ahead(s)
    ensures ReadBlock(s3, n) == Ok((t, s2.(buffering := false, queue := [])))
  {
    assert LineBreaks([]) == 0;
    RewindRestoresText(s, s1, t, s2, s3);
    assert s3.queue == t && |t| == n;
    ReplayDrainsQueue(s3, n);
    assert t[..n] == t && t[n..] == [];
  }

  /**
    A bookmark opened while replayed characters are still queued: rewinding it
    restores the characters ahead, but the counters stay advanced past the queued
    characters, which are then read, and counted, a second time.
   */
  lemma RewindOverPendingQueue(s: Stream, s1: Stream, t: string, s2: Stream, s3: Stream, n: nat)
    requires !s.buffering
    requires StartBuffering(s) == Ok(s1)
    requires ReadBlock(s1, n) == Ok((t, s2))
    requires StopBuffering(s2) == Ok(s3)
    ensures Ahead(s3) == Ahead(s)
    ensures s3.queue == s.queue + t
    ensures s3.counters.position == s.counters.position + |s.queue|
  {
    RewindRestoresText(s, s1, t, s2, s3);
  }

  lemma RewindRestoresText(s: Stream, s1: Stream, t: string, s2: Stream, s3: Stream)
    requires !s.buffering && s1.buffering
    requires s1.source == s.source && s1.queue == s.queue
    requires Consumed(s1, t, s2)
    requires s3 == s2.(buffering := false, counters := s1.bookmark)
    ensures s3.queue == s.queue + t
    ensures Ahead(s3) == Ahead(s)
  {
    BufferedRead(s1, t, s2);
    var x, rest := Fold(s.source), Fold(s2.source);
    assert Ahead(s3) == (s.queue + t) + rest;
    Reassemble(s.queue, t, x, rest);
  }

  /** While buffering, a read takes its characters from the source and queues them. */
  lemma BufferedRead(s: Stream, t: string, s': Stream)
    requires s.buffering && Consumed(s, t, s')
    ensures |t| <= |Fold(s.source)| && t == Fold(s.source)[..|t|]
    ensures Fold(s'.source) == Fold(s.source)[|t|..]
    ensures s'.queue == s.queue + t
  {
    assert Ahead(s) == Fold(s.source);
    assert Ahead(s') == Fold(s'.source);
  }

  /** Putting a consumed prefix back in front of what is left restores the whole. */
  lemma Reassemble(q: seq<char>, t: seq<char>, x: seq<char>, rest: seq<char>)
    requires |t| <= |x| && t == x[..|t|] && rest == x[|t|..]
    ensures (q + t) + rest == q + x
  {
    assert t + rest == x;
  }

  // ---------------------------------------------------------------------------
  // The block move of FlushBuffer and StartBuffering against reading one by one
  // ---------------------------------------------------------------------------

  lemma {:induction false} NewLinesCons(c: char, t: seq<char>)
    ensures NewLines([c] + t) == (if IsNL(c) then 1 else 0) + NewLines(t)
    decreases |t|
  {
    if |t| > 0 {
      assert ([c] + t)[..|[c] + t| - 1] == [c] + t[..|t| - 1];
      NewLinesCons(c, t[..|t| - 1]);
    } else {
      assert [c][..0] == [];
    }
  }

  lemma {:induction false} LineBreaksWithoutCrLf(cs: seq<char>)
    requires NoCrLf(cs)
    ensures LineBreaks(cs) == NewLines(cs)
    decreases |cs|
  {
    if |cs| > 0 {
      assert NoCrLf(cs[1..]) by {
        forall k | 0 <= k < |cs[1..]| - 1
          ensures !(cs[1..][k] == '\r' && cs[1..][k + 1] == NL)
        {
          assert cs[1..][k] == cs[k + 1] && cs[1..][k + 1] == cs[k + 2];
        }
      }
      LineBreaksWithoutCrLf(cs[1..]);
      assert cs == [cs[0]] + cs[1..];
      NewLinesCons(cs[0], cs[1..]);
      if |cs| > 1 && cs[0] == '\r' {
        assert !(cs[0] == '\r' && cs[1] == NL);
      }
    }
  }

  /**
    The block move agrees with one-by-one reading on the position always, and on
    the line count when no `\r` in the block is directly followed by `\n`.
   */
  lemma MoveOverCountsLikeReading(k: Counters, cs: seq<char>)
    ensures MoveOver(k, cs).position == Advance(k, cs).position
    ensures NoCrLf(cs) ==> MoveOver(k, cs).newLineCount == Advance(k, cs).newLineCount
  {
    AdvanceClosedForm(k, cs);
    if NoCrLf(cs) {
      LineBreaksWithoutCrLf(cs);
    }
  }

  /** On a block without line breaks the block move and one-by-one reading coincide. */
  lemma {:induction false} MoveOverWithoutBreaks(k: Counters, cs: seq<char>)
    requires forall i :: 0 <= i < |cs| ==> !IsNL(cs[i])
    ensures MoveOver(k, cs) == Advance(k, cs)
  {
    AdvanceClosedForm(k, cs);
    LineBreaksWithoutCrLf(cs);
    NoNewLines(cs);
  }

  lemma {:induction false} NoNewLines(cs: seq<char>)
    requires forall i :: 0 <= i < |cs| ==> !IsNL(cs[i])
    ensures NewLines(cs) == 0
    decreases |cs|
  {
    if |cs| > 0 {
      NoNewLines(cs[..|cs| - 1]);
    }
  }

  // ---------------------------------------------------------------------------
  // The block move's line start, as written and as intended
  // ---------------------------------------------------------------------------

  /**
    Rewinding a read of `a\nbc` and flushing the queue: the block move puts the
    line start after the whole block, where reading put it just after the newline,
    so every column reported on that line afterwards is two too small.
   */
  lemma FlushAfterRewindMisplacesLineStart(s: Stream, s1: Stream, s2: Stream, s3: Stream)
    requires !s.buffering && s.queue == []
    requires StartBuffering(s) == Ok(s1)
    requires ReadBlock(s1, 4) == Ok(("a\nbc", s2))
    requires StopBuffering(s2) == Ok(s3)
    ensures s2.counters.newLineStart == s.counters.position + 2
    ensures FlushBuffer(s3).counters.newLineStart == s.counters.position + 4
    ensures FlushBuffer(s3).counters != s2.counters
  {
    var t := "a\nbc";
    assert LineBreaks([]) == 0;
    assert Consumed(s1, t, s2);
    RewindRestoresText(s, s1, t, s2, s3);
    BlockMoveAgainstReading(s.counters);
  }

  lemma BlockMoveAgainstReading(k: Counters)
    ensures MoveOver(k, "a\nbc") == Counters(k.position + 4, k.newLineCount + 1, k.position + 4)
    ensures Advance(k, "a\nbc") == Counters(k.position + 4, k.newLineCount + 1, k.position + 2)
  {
    BlockBreaks();
    ReadingCounters(k);
  }

  lemma BlockBreaks()
    ensures LineBreaks("a\nbc") == 1
  {
    var t := "a\nbc";
    assert t[1..] == "\nbc" && t[1..][1..] == "bc" && t[1..][1..][1..] == "c";
    assert LineBreaks("c") == 0;
  }

  lemma ReadingCounters(k: Counters)
    ensures Advance(k, "a\nbc") == Counters(k.position + 4, k.newLineCount + 1, k.position + 2)
  {
    var t := "a\nbc";
    assert t[1..] == "\nbc" && t[1..][1..] == "bc" && t[1..][1..][1..] == "c";
    var k2 := Step(Step(k, 'a'), NL);
    assert MoveEach(k2, "bc") == Step(Step(k2, 'b'), 'c');
    MoveEachIsReading(k, t);
  }

  /**
    `MovePosition(char[])` as evidently intended: each character moves the counters
    exactly as reading it did.
   */
  function MoveEach(k: Counters, cs: seq<char>): Counters
    decreases |cs|
  {
    if |cs| == 0 then k else MoveEach(Step(k, cs[0]), cs[1..])
  }

  lemma {:induction false} MoveEachIsReading(k: Counters, cs: seq<char>)
    ensures MoveEach(k, cs) == Advance(k, cs)
    decreases |cs|
  {
    if |cs| > 0 {
      MoveEachIsReading(Step(k, cs[0]), cs[1..]);
      AdvanceCons(k, cs[0], cs[1..]);
      assert [cs[0]] + cs[1..] == cs;
    }
  }

  /** `FlushBuffer` with the corrected block move. */
  function FlushBufferFixed(s: Stream): (r: Stream)
    ensures r.queue == [] && r.source == s.source && r.buffering == s.buffering
    ensures r.counters == Advance(s.counters, s.queue)
  {
    MoveEachIsReading(s.counters, s.queue);
    s.(counters := MoveEach(s.counters, s.queue), queue := [])
  }

  /** `StartBuffering` with the corrected block move. */
  function StartBufferingFixed(s: Stream): (r: Result<Stream, Error>)
    ensures r.Err? <==> s.buffering
    ensures r.Ok? ==> && r.value.buffering
                      && r.value.bookmark == r.value.counters
                      && r.value.counters == Advance(s.counters, s.queue)
                      && r.value.queue == s.queue && r.value.source == s.source
  {
    if s.buffering then Err(Misuse("buffering already started"))
    else
      MoveEachIsReading(s.counters, s.queue);
      var k := if |s.queue| > 0 then MoveEach(s.counters, s.queue) else s.counters;
      Ok(s.(buffering := true, counters := k, bookmark := k))
  }

  /**
    With the corrected block move, rewinding a read and then flushing it commits
    the read: the stream ends exactly where reading left it, counters included.
   */
  lemma RewindThenFlushCommits(s: Stream, s1: Stream, t: string, s2: Stream, s3: Stream, n: nat)
    requires !s.buffering && s.queue == []
    requires StartBufferingFixed(s) == Ok(s1)
    requires ReadBlock(s1, n) == Ok((t, s2))
    requires StopBuffering(s2) == Ok(s3)
    ensures FlushBufferFixed(s3).counters == s2.counters
    ensures FlushBufferFixed(s3) == s2.(buffering := false, queue := [])
  {
    assert Consumed(s1, t, s2);
    RewindRestoresText(s, s1, t, s2, s3);
  }
}

=== FILE: chars.dfy ===
/** The character classes the stream and the parsers agree on (L20n/io/CharStream.cs). */
module Chars {

  /** `NOP` and `EOF`: the character a peek reports once the input is exhausted. */
  const EOF: char := '\0'

  /** The one character every newline is reported as after `\r\n` folding. */
  const NL: char := '\n'

  /** `IsNL`: both `\r` and `\n` are newline characters; the end-of-input marker is not. */
  predicate IsNL(c: char): (r: bool)
    ensures c == NL ==> r
    ensures r ==> !IsEOF(c)
  {
    c == '\r' || c == '\n'
  }

  predicate IsEOF(c: char) {
    c == EOF
  }
}

=== FILE: grammar.dfy ===
/**
  The sub-parsers AnyText and Message call but that are not part of this model:
  WhiteSpace, NewLine, Identifier, Pattern, Placeable and MemberList. Each is a
  function supplied by the caller; the only assumptions made about them are that
  they consume a prefix of the input, and that a `PeekAndParse` which finds
  nothing leaves the input where it was.
 */
module Grammar {
  import opened Wrappers
  import opened TextInput
  import opened Ast

  datatype SubParsers = SubParsers(
    whiteSpace: Input -> Input,                                            // WhiteSpace.Parse
    newLine: Input -> Result<Input, SyntaxError>,                          // NewLine.Parse
    identifier: Input -> Result<(Option<StringPrimitive>, Input), SyntaxError>, // Identifier.PeekAndParse
    pattern: Input -> Result<(Node, Input), SyntaxError>,                  // Pattern.Parse
    placeable: Input -> Result<(Option<Node>, Input), SyntaxError>,        // Placeable.PeekAndParse
    memberList: Input -> Result<(Option<MemberList>, Input), SyntaxError>) // MemberList.PeekAndParse

  /** A `PeekAndParse` outcome: nothing found and nothing consumed, or something found further on. */
  predicate Speculative<T>(i: Input, r: (Option<T>, Input)) {
    if r.0.None? then r.1 == i else Advances(i, r.1)
  }

  ghost predicate Lawful(g: SubParsers) {
    && (forall i: Input :: Advances(i, g.whiteSpace(i)))
    && (forall i: Input :: g.newLine(i).Ok? ==> Advances(i, g.newLine(i).value))
    && (forall i: Input :: g.identifier(i).Ok? ==> Speculative(i, g.identifier(i).value))
    && (forall i: Input :: g.pattern(i).Ok? ==> Advances(i, g.pattern(i).value.1))
    && (forall i: Input :: g.placeable(i).Ok? ==> Speculative(i, g.placeable(i).value))
    && (forall i: Input :: g.memberList(i).Ok? ==> Speculative(i, g.memberList(i).value))
  }

  /** Sub-parsers that keep the assumed contracts. */
  type Parsers = g: SubParsers | Lawful(g)
    witness SubParsers(
      i => i,
      i => Ok(i),
      i => Ok((None, i)),
      (i: Input) => Err(SyntaxError(i.pos, "no pattern")),
      i => Ok((None, i)),
      i => Ok((None, i)))
}

=== FILE: message.dfy ===
/**
  The message (entity) parser of L20n/ftl/parsers/Message.cs:
  identifier WS '=' WS pattern? WS NL member-list?
 */
module Message {
  import opened Wrappers
  import opened Chars
  import opened TextInput
  import opened Ast
  import opened Grammar

  /** Where the parse stands after `WS '=' WS`, once the `=` is known to be there. */
  function AfterEquals(g: Parsers, i: Input): Input
    requires Peek(g.whiteSpace(i)) == '='
  {
    g.whiteSpace(Next(g.whiteSpace(i)))
  }

  /**
    The optional pattern after `=`: none when a newline comes next (the cursor
    stays), otherwise the pattern the pattern parser returns.
   */
  function Value(g: Parsers, b: Input): (r: Result<(Option<Node>, Input), SyntaxError>)
    ensures IsNL(Peek(b)) ==> r == Ok((None, b))
    ensures !IsNL(Peek(b)) ==> (r.Ok? <==> g.pattern(b).Ok?)
    ensures !IsNL(Peek(b)) && r.Ok? ==> r.value == (Some(g.pattern(b).value.0), g.pattern(b).value.1)
    ensures r.Ok? ==> Advances(b, r.value.1)
  {
    if !IsNL(Peek(b)) then
      var parsed :- g.pattern(b);
      Ok((Some(parsed.0), parsed.1))
    else
      Ok((None, b))
  }

  /** Where `NL` is expected: after the optional pattern and the whitespace that follows it. */
  function BeforeNewLine(g: Parsers, i: Input): Input
    requires Peek(g.whiteSpace(i)) == '=' && Value(g, AfterEquals(g, i)).Ok?
  {
    g.whiteSpace(Value(g, AfterEquals(g, i)).value.1)
  }

  /**
    `Parse`, as written: the `=` is mandatory; a pattern is parsed unless a newline
    follows the `=` and its whitespace; the newline is mandatory; a member list is
    optional. It succeeds exactly when each of these steps does, and the entity
    holds what the pattern and member-list parsers returned. When both pattern and
    member list are missing the error is built but never raised, so the entity
    comes back without a value.
   */
  function Parse(g: Parsers, i: Input, identifier: StringPrimitive): (r: Result<(Entity, Input), SyntaxError>)
    ensures r.Ok? <==>
              && Peek(g.whiteSpace(i)) == '='
              && Value(g, AfterEquals(g, i)).Ok?
              && g.newLine(BeforeNewLine(g, i)).Ok?
              && g.memberList(g.newLine(BeforeNewLine(g, i)).value).Ok?
    ensures r.Ok? ==>
              var (e, o) := r.value;
              var members := g.memberList(g.newLine(BeforeNewLine(g, i)).value).value;
              && e.identifier == identifier && e.comment.None?
              && e.pattern == Value(g, AfterEquals(g, i)).value.0
              && (e.pattern.Some? <==> !IsNL(Peek(AfterEquals(g, i))))
              && e.memberList == members.0
              && o == members.1
              && Advances(i, o)
  {
    var afterSpace := g.whiteSpace(i);
    var afterEquals :- SkipCharacter(afterSpace, '=');
    var beforeValue := g.whiteSpace(afterEquals);
    var value :- Value(g, beforeValue);
    var afterValue := g.whiteSpace(value.1);
    var afterNewLine :- g.newLine(afterValue);
    var members :- g.memberList(afterNewLine);
    // the source creates "member-list was epcted, as no pattern was found" here and drops it
    Ok((Entity(identifier, value.0, members.0, None), members.1))
  }

  /**
    On success the parts of an entity lie in order in the text: the `=` under the
    cursor after the leading whitespace, then the pattern (if any), then the
    newline, then the member list (if any), ending at the returned cursor.
   */
  lemma ParseLayout(g: Parsers, i: Input, identifier: StringPrimitive)
    requires Parse(g, i, identifier).Ok?
    ensures var eq := g.whiteSpace(i).pos;
            && i.pos <= eq < |i.text| && i.text[eq] == '='
            && eq < AfterEquals(g, i).pos <= BeforeNewLine(g, i).pos
            && BeforeNewLine(g, i).pos <= g.newLine(BeforeNewLine(g, i)).value.pos
            && g.newLine(BeforeNewLine(g, i)).value.pos <= Parse(g, i, identifier).value.1.pos
    ensures Parse(g, i, identifier).value.0.pattern.Some? ==>
              var b := AfterEquals(g, i);
              b.pos <= g.pattern(b).value.1.pos <= BeforeNewLine(g, i).pos
  {
  }

  /**
    `PeekAndParse`: no match, and nothing consumed, when no identifier is found;
    once one is found the answer is a match, and any later problem is an error.
   */
  function PeekAndParse(g: Parsers, i: Input): (r: Result<(Option<Entity>, Input), SyntaxError>)
    ensures g.identifier(i).Err? ==> r.Err?
    ensures g.identifier(i).Ok? && g.identifier(i).value.0.None? ==> r == Ok((None, i))
    ensures g.identifier(i).Ok? && g.identifier(i).value.0.Some? ==>
              r.Err? || (r.value.0.Some? && r.value.0.value.identifier == g.identifier(i).value.0.value)
    ensures r.Ok? ==> Speculative(i, r.value)
    ensures g.identifier(i).Ok? && g.identifier(i).value.0.Some? ==>
              var (id, j) := (g.identifier(i).value.0.value, g.identifier(i).value.1);
              && (r.Ok? <==> Parse(g, j, id).Ok?)
              && (r.Ok? ==> r.value == (Some(Parse(g, j, id).value.0), Parse(g, j, id).value.1))
  {
    var identifier :- g.identifier(i);
    if identifier.0.None? then
      Ok((None, identifier.1))
    else
      var entity :- Parse(g, identifier.1, identifier.0.value);
      Ok((Some(entity.0), entity.1))
  }

  /**
    The missing `throw`: `foo =` followed by a newline and no member list parses
    to an entity with neither a pattern nor a member list.
   */
  lemma ValuelessMessageAccepted(g: Parsers, i: Input, identifier: StringPrimitive, j: Input)
    requires Peek(g.whiteSpace(i)) == '='
    requires IsNL(Peek(AfterEquals(g, i)))
    requires g.newLine(g.whiteSpace(AfterEquals(g, i))) == Ok(j)
    requires g.memberList(j) == Ok((None, j))
    ensures Parse(g, i, identifier) == Ok((Entity(identifier, None, None, None), j))
    ensures !HasValue(Parse(g, i, identifier).value.0)
  {
  }

  /** `Parse` with the error raised: a message needs a pattern or a member list. */
  function ParseChecked(g: Parsers, i: Input, identifier: StringPrimitive): (r: Result<(Entity, Input), SyntaxError>)
    ensures r.Ok? ==> HasValue(r.value.0)
    ensures r.Ok? <==> Parse(g, i, identifier).Ok? && HasValue(Parse(g, i, identifier).value.0)
    ensures r.Ok? ==> r == Parse(g, i, identifier)
  {
    var parsed :- Parse(g, i, identifier);
    if !HasValue(parsed.0) then
      Err(SyntaxError(parsed.1.pos, "member-list was epcted, as no pattern was found"))
    else
      Ok(parsed)
  }

  /** `PeekAndParse` on top of ParseChecked: every entity it returns has a value. */
  function PeekAndParseChecked(g: Parsers, i: Input): (r: Result<(Option<Entity>, Input), SyntaxError>)
    ensures r.Ok? && r.value.0.Some? ==> HasValue(r.value.0.value)
    ensures g.identifier(i).Ok? && g.identifier(i).value.0.None? ==> r == Ok((None, i))
    ensures r.Ok? ==> Speculative(i, r.value)
    ensures g.identifier(i).Ok? && g.identifier(i).value.0.Some? ==>
              var (id, j) := (g.identifier(i).value.0.value, g.identifier(i).value.1);
              && (r.Ok? <==> ParseChecked(g, j, id).Ok?)
              && (r.Ok? ==> r.value == (Some(ParseChecked(g, j, id).value.0), ParseChecked(g, j, id).value.1))
  {
    var identifier :- g.identifier(i);
    if identifier.0.None? then
      Ok((None, identifier.1))
    else
      var entity :- ParseChecked(g, identifier.1, identifier.0.value);
      Ok((Some(entity.0), entity.1))
  }
}

=== FILE: numerals.dfy ===
/**
  Decimal rendering of integers, as `String.Format("{0}", n)` writes them in the
  diagnostics of CharStream, and the parsing that reads them back.
 */
module Numerals {
  import opened Wrappers

  predicate IsDigit(c: char) {
    '0' <= c <= '9'
  }

  predicate AllDigits(s: string) {
    forall k :: 0 <= k < |s| ==> IsDigit(s[k])
  }

  function Digit(d: nat): (c: char)
    requires d < 10
    ensures IsDigit(c)
  {
    (('0' as int) + d) as char
  }

  function DigitValue(c: char): nat
    requires IsDigit(c)
  {
    (c as int) - ('0' as int)
  }

  /** Most significant digit first, no leading zeros. */
  function NatToString(n: nat): (s: string)
    ensures |s| > 0 && AllDigits(s)
  {
    if n < 10 then [Digit(n)] else NatToString(n / 10) + [Digit(n % 10)]
  }

  /** A negative number gets a leading '-'. */
  function IntToString(i: int): (s: string)
    ensures |s| > 0
    ensures forall k :: 0 <= k < |s| ==> IsDigit(s[k]) || s[k] == '-'
  {
    if i < 0 then "-" + NatToString(-i) else NatToString(i)
  }

  function ParseDigits(s: string): nat
    requires AllDigits(s)
  {
    if |s| == 0 then 0 else ParseDigits(s[..|s| - 1]) * 10 + DigitValue(s[|s| - 1])
  }

  /** Reads an optional '-' followed by one or more digits; anything else is `None`. */
  function ParseInt(s: string): Option<int> {
    if |s| > 1 && s[0] == '-' && AllDigits(s[1..]) then Some(0 - ParseDigits(s[1..]) as int)
    else if |s| > 0 && AllDigits(s) then Some(ParseDigits(s))
    else None
  }

  lemma {:induction false} ParseNatToString(n: nat)
    ensures ParseDigits(NatToString(n)) == n
  {
    if n >= 10 {
      var s := NatToString(n);
      assert s[..|s| - 1] == NatToString(n / 10);
      ParseNatToString(n / 10);
    }
  }

  /** Rendering and reading back are inverse. */
  lemma ParseIntToString(i: int)
    ensures ParseInt(IntToString(i)) == Some(i)
  {
    var s := IntToString(i);
    if i < 0 {
      assert s[1..] == NatToString(-i);
      ParseNatToString(-i);
    } else {
      ParseNatToString(i);
      assert s[0] != '-';
    }
  }

  /** The first index at which `c` occurs in `s`. */
  function IndexOf(s: string, c: char): (r: Option<nat>)
    ensures r.Some? ==> r.value < |s| && s[r.value] == c && c !in s[..r.value]
    ensures r.None? ==> c !in s
  {
    if |s| == 0 then None
    else if s[0] == c then Some(0)
    else match IndexOf(s[1..], c)
      case None => None
      case Some(k) => Some(k + 1)
  }

  lemma IndexOfAfter(a: string, c: char, b: string)
    requires c !in a
    ensures IndexOf(a + [c] + b, c) == Some(|a|)
  {
    var s := a + [c] + b;
    assert s[|a|] == c;
    assert s[..|a|] == a;
  }
}

=== FILE: text_input.dfy ===
/**
  The stream the parsers of AnyText and Message are written against. Their newer
  CharStream (with `Rewind` and `IsEOF`) is not part of this model, so it is modelled
  as the whole text with a cursor: a peek shows the character under the cursor,
  and `Rewind` puts the cursor back on a position observed earlier.
 */
module TextInput {
  import opened Wrappers
  import opened Chars

  datatype Cursor = Cursor(text: seq<char>, pos: nat)

  /** A cursor inside its text (or just after it). */
  type Input = c: Cursor | c.pos <= |c.text| witness Cursor([], 0)

  /** A positioned parse error; `at` is the stream position it points to. */
  datatype SyntaxError = SyntaxError(at: int, message: string)

  /** `PeekNext`: the character under the cursor, `EOF` past the end. */
  function Peek(i: Input): (c: char)
    ensures i.pos < |i.text| ==> c == i.text[i.pos]
    ensures i.pos == |i.text| ==> IsEOF(c)
  {
    if i.pos < |i.text| then i.text[i.pos] else EOF
  }

  /** `o` lies on the same text as `i`, no earlier. */
  predicate Advances(i: Input, o: Input) {
    o.text == i.text && i.pos <= o.pos
  }

  /** `SkipNext` where a character is known to be present. */
  function Next(i: Input): (o: Input)
    requires i.pos < |i.text|
    ensures Advances(i, o) && o.pos == i.pos + 1
  {
    Cursor(i.text, i.pos + 1)
  }

  /** `Rewind`: back to a position observed earlier on the same text. */
  function Rewind(i: Input, p: nat): (o: Input)
    requires p <= |i.text|
    ensures o.text == i.text && o.pos == p
  {
    Cursor(i.text, p)
  }

  /**
    `SkipCharacter`: consumes one character and fails if it is not `expected`; the
    error points back at the consumed character. At the end of the text there is
    nothing to consume and that fails too.
   */
  function SkipCharacter(i: Input, expected: char): (r: Result<Input, SyntaxError>)
    ensures r.Ok? <==> i.pos < |i.text| && i.text[i.pos] == expected
    ensures r.Ok? ==> Advances(i, r.value) && r.value.pos == i.pos + 1
    ensures r.Err? ==> r.error.at == i.pos
  {
    if i.pos == |i.text| then
      Err(SyntaxError(i.pos, "EOF reached, while this was not expected"))
    else if i.text[i.pos] != expected then
      Err(SyntaxError(i.pos,
        "next character was " + [i.text[i.pos]] + ", while " + [expected] + " was expected"))
    else
      Ok(Next(i))
  }
}

=== FILE: wrappers.dfy ===
/** Failure-compatible wrappers shared by every module of the model. */
module Wrappers {

  /** An optional value: `None` stands for the source's `null`. */
  datatype Option<+T> = None | Some(value: T)

  /** The outcome of an operation that may raise: `Err` carries what the source throws. */
  datatype Result<+T, +E> = Ok(value: T) | Err(error: E) {

    predicate IsFailure() {
      Err?
    }

    function PropagateFailure<U>(): Result<U, E>
      requires Err?
    {
      Err(error)
    }

    function Extract(): T
      requires Ok?
    {
      value
    }
  }
}
